=== FILE: README.md ===
# gogit: tagged hook lines and the local-replace transaction, in Dafny

This project models the core of `gogit`. The tool keeps `replace` directives
that point into the local file system out of committed `go.mod` files. It
does this with two git hooks:

- **pre-commit** saves `go.mod` as `go.mod.b` and drops the local directives;
- **post-commit** copies the backup back and deletes it.

The project models three parts of the tool:

- **The tagged-line editor** of `install/add.go`, in modules `ShellEdit`,
  `ShellEditProperties`, `ShellEditExamples` and `ShellEditFindings`. It adds, replaces or removes
  one line of a shell script that carries a `# <comment>` tag. A line is
  tagged when the regular expression `# [\s]*<comment>` matches it. The model
  states that expression twice: `Matches` is an existential over the match
  position and the white-space run, and `LineMatches` is an executable
  search. The lemma `LineMatchesIff` proves the two agree. The blank-line
  loop `fixLineSeparators` is a terminating recursive function with a proved
  closed form.
- **The strip/undo transaction** of `replace/gogit.go`, in modules
  `GoModReplace` and `GoModReplaceProperties`. It works over a value-level
  file system. The go.mod parser and printer are parameters (`ModPort`), and
  the staging state of go.mod is an input (`StatusQuery`). The backup file is
  both the saved data and the lock between the two steps.
- **The hook-file glue** of `install/ensure.go`, `install/remove.go` and
  `gogitinstall/install.go`, in modules `InstallEnsure`, `InstallRemove`,
  `GogitInstall` and `InstallProperties`. Each reads a file, edits it and
  writes it back, or installs the fixed hook contents only where no hook
  exists.

Supporting modules:

- `Results` holds `Option` and `Result`.
- `Text` holds `strings.TrimSpace` over ASCII white space, and `Split`/`Join`
  on `"\n"` with their round trips.
- `FileSystem` models the file system as `FS(files, dirs, readOnly)`. A write
  or a removal of a `readOnly` path fails; this stands for the write and
  removal errors. Reading a regular file always succeeds.
  `Outcome(fs, err)` is the state after a Go function that returns only an
  `error`, with whatever it already wrote kept.

Two facts about the code that the model keeps:

- `RemoveLocalReplacesFromGomod` checks for the backup before it looks for the
  directory and go.mod (replace/gogit.go:122-137).
- Pre-commit runs `aduu gogit replace .` and then `git add go.mod`, and
  post-commit runs `aduu gogit replace --undo .` (gogitinstall/install.go:31-46).

## Model

| member | source | states |
|---|---|---|
| Text.Trim | install/add.go:10 | the result has no ASCII white space at either end |
| Text.TrimCutsSpace | install/add.go:10 | the result is a slice of the input with only white space cut off before and after it; with the line above this fixes the result |
| Text.TrimKeepsInner | install/add.go:10 | a character that is not white space is never cut off |
| Text.TrimOfTrimmed | install/add.go:10 | trimming a text without white space at its ends gives it back |
| Text.TrimKeepsOut | install/add.go:10 | trimming never brings in a character that was not in the text |
| Text.Split | install/add.go:100 | the pieces of `strings.Split(s, "\n")` contain no line break, and there is at least one |
| Text.Join | install/add.go:129 | `strings.Join(lines, "\n")`; its partner is `Text.SplitJoin` |
| Text.JoinSplit | install/add.go:100 | joining the pieces of a split gives back the text |
| Text.SplitJoin | install/add.go:129 | splitting the join of newline-free lines gives back the lines |
| Text.SplitLastEmpty | install/add.go:100 | the last piece is empty exactly when the text is empty or ends in a line break |
| ShellEdit.CombinedLine | install/add.go:9-11 | the written line has no white space at its ends and always holds `#` |
| ShellEdit.CombinedLineShape | install/add.go:9-11 | the four shapes of the combined line: `#`, `# c`, `l #` and `l # c` for the trimmed line `l` and comment `c` |
| ShellEdit.CombinedLineTagged | install/add.go:9-11 | for a non-empty comment without white space at its ends, the combined line is the trimmed line and a space (nothing when the line is blank), then `# ` and the comment |
| ShellEdit.CombinedLineNewlineFree | install/add.go:9-11 | a line and a comment without line breaks give a combined line without line breaks |
| ShellEdit.CombinedLineMatches | install/add.go:9-22 | the combined line carries its own tag, under both readings of the pattern |
| ShellEdit.Matches | install/add.go:22 | the pattern `# [\s]*<comment>` as an existential over the match position and the length of the white-space run |
| ShellEdit.LineMatches | install/add.go:29 | `MatchString` as a left-to-right search; its partner is `ShellEdit.LineMatchesIff` |
| ShellEdit.LineMatchesIff | install/add.go:22 | the executable matcher holds exactly when some position has `# `, a run of `[\t\n\f\r ]`, then the comment; the match is not anchored at either end |
| ShellEdit.ShortLineNoMatch | install/add.go:22 | a line shorter than two characters never matches, so empty lines are never tagged |
| ShellEdit.TagMatches | install/add.go:22 | `# ` and the comment, after any text, matches |
| ShellEdit.MatchExamples | install/add.go:22 | `# AUTO-GENERATED` matches `AUTO-GEN`, `# AUTO-GEN` does not match `AUTO-GENE`, `#x` does not match `x` |
| ShellEdit.CommentLineIndexes | install/add.go:21-35 | the indexes are exactly the matching lines, in ascending order |
| ShellEdit.FirstIndexIsFirstMatch | install/add.go:133 | the head of the index list is the first matching line |
| ShellEdit.SingleIndexIsOnlyMatch | install/add.go:155-159 | one index means exactly one matching line |
| ShellEdit.ManyIndexesAreTwoMatches | install/add.go:155-156 | two or more indexes mean two distinct matching lines |
| ShellEdit.TrimTrailingEmpty | install/add.go:163-171 | the result is a prefix of the lines that does not end in a zero-length line, and every dropped line has zero length |
| ShellEdit.FixLineSeparators | install/add.go:37-92 | the loop keeps the last line last and adds at most one line |
| ShellEdit.FixLineSeparatorsClosedForm | install/add.go:37-92 | the normalisation of the prior lines `P` plus the appended `X` gives `[X]` when `P` without its trailing zero-length lines is empty, otherwise those lines, one `""`, then `X` |
| ShellEdit.Validate | install/add.go:102-116 | the checks in their order: empty comment, line break in the comment, line break in the line, `#` in the comment; it passes exactly when none applies |
| ShellEdit.AddToLines | install/add.go:118-137 | with a tagged line, only the first one is overwritten by the combined line and the line count stays; without one, the combined line is appended in the closed form |
| ShellEdit.AddToShellFile | install/add.go:99-138 | a validation failure is the result; otherwise the text splits into the edited lines |
| ShellEdit.AddToLinesNewlineFree | install/add.go:123-137 | the edited lines stay free of line breaks, so joining them loses nothing |
| ShellEdit.RemoveFromShellFile | install/add.go:143-174 | no tagged line gives the content byte-identical; two tagged lines give `TwoCommentsMatch`; exactly one is deleted and the trailing zero-length lines go with it |
| ShellEditProperties.AddToLinesIdempotent | install/add.go:118-137 | for a non-empty comment without white space at its ends, editing the lines twice is editing them once |
| ShellEditProperties.ReplacedStaysFirst | install/add.go:132-137 | the overwritten first tagged line stays the first tagged line, so a second edit changes nothing |
| ShellEditProperties.AppendedStaysLast | install/add.go:123-129 | the appended combined line is the first tagged line, so a second edit changes nothing |
| ShellEditProperties.AddOverFirst | install/add.go:132-137 | lines whose first tagged line already is the combined line come back unchanged |
| ShellEditProperties.AppendedIsFirstMatch | install/add.go:123-129 | after appending to untagged lines, the combined line is the last line and the first tagged one |
| ShellEditProperties.AddToShellFileIdempotent | install/add.go:99-138 | adding the same line and comment a second time returns the text unchanged |
| ShellEditProperties.FirstMatchExists | install/add.go:21-35 | when some line matches, a first matching line exists |
| ShellEditProperties.SeparatedAppendRemove | install/add.go:159-171 | a tagged line appended to untagged lines is the only tagged line, and deleting it leaves the lines without their trailing empty ones followed by the one separating empty line, or nothing when those lines are all empty; the later trim in `RemoveFromShellFile` drops that separator |
| ShellEditProperties.TrimTrailingEmptyOfTrimmed | install/add.go:163-171 | one more zero-length line at the end makes no difference to the trailing-line trim |
| ShellEditProperties.AddThenRemove | install/add.go:123-173 | on untagged content, removing after adding succeeds and gives the content's lines without trailing empty lines |
| ShellEditProperties.AddThenRemoveRestores | install/add.go:123-173 | on untagged content that is empty or does not end in a line break, removing after adding gives back the content exactly |
| ShellEditProperties.JoinTrimmedSplit | install/add.go:163-173 | content that does not end in a line break survives split, trailing-line trim and join |
| ShellEditProperties.AddWhenUntagged | install/add.go:123-129 | on untagged content, adding joins the closed form of the appended lines |
| ShellEditProperties.RemoveOnlyMatch | install/add.go:159-173 | with exactly one tagged line, removal deletes it and trims the trailing zero-length lines |
| ShellEditProperties.SplitSingle | install/add.go:100 | a text without line breaks is one line |
| ShellEditProperties.AddAfterSingleLine | install/add.go:123-129 | a non-empty one-line script without `#` gets an empty line and then the combined line |
| ShellEditProperties.AddAfterUntaggedLine | install/add.go:123-129 | the same for any non-empty untagged single line |
| ShellEditProperties.NoHashNoMatch | install/add.go:22 | a line without `#` never carries a tag |
| ShellEditProperties.JoinThree | install/add.go:129 | three lines join with a line break between each pair |
| ShellEditProperties.SplitTwo | install/add.go:100 | two newline-free lines joined by a line break split back into them |
| ShellEditProperties.SplitThree | install/add.go:100 | three newline-free lines joined by line breaks split back into them |
| ShellEditProperties.AddReplacesMiddle | install/add.go:132-137 | a tagged line after an untagged one is overwritten in place, and the lines around it keep their text |
| ShellEditProperties.RemoveTaggedLast | install/add.go:155-173 | a tagged last line after a non-empty untagged line is removed, leaving that line |
| ShellEditExamples.AddExample | install/add_test.go:88-97 | `hello` with `my cmd` and `AUTO-GEN` becomes `hello\n\nmy cmd # AUTO-GEN` |
| ShellEditExamples.AddEmptyLineExample | install/add_test.go:47-60 | `hello` with a blank line becomes `hello\n\n# AUTO-GEN` |
| ShellEditExamples.AddErrorExamples | install/add_test.go:146-163 | an empty comment gives `CommentIsEmpty` and `# abc` gives `CommentContainsHash` |
| ShellEditExamples.AddLineBreakInLine | install/add_test.go:126-134 | a line that is a line break gives `LineContainsLineSeparators` |
| ShellEditExamples.AddLineBreakInComment | install/add_test.go:136-144 | a comment that starts with a line break gives `CommentContainsLineSeparators` |
| ShellEditExamples.CombinedLineExample | install/add.go:9-11 | `my cmd` and `AUTO-GEN` combine to `my cmd # AUTO-GEN` |
| ShellEditExamples.CombinedEmptyLineExample | install/add.go:9-11 | a blank line and `AUTO-GEN` combine to `# AUTO-GEN` |
| ShellEditExamples.ReplaceBetweenEmpty | install/add.go:132-137 | a tagged line between two empty lines is replaced by the combined line |
| ShellEditExamples.TaggedLonger | install/add.go:22 | `# AUTO-GENERATED` carries the tag `AUTO-GEN` |
| ShellEditExamples.UntaggedLonger | install/add.go:22 | `# AUTO-GEN` does not carry the tag `AUTO-GENE` |
| ShellEditExamples.TagLineMatches | install/add.go:22 | anything followed by `# ` and the comment carries the tag |
| ShellEditExamples.ReplaceLonger | install/add_test.go:20-33 | `\n# AUTO-GENERATED\n` with a blank line becomes `\n# AUTO-GEN\n` |
| ShellEditExamples.ReplaceIndented | install/add_test.go:35-46 | `\n  # AUTO-GEN\n` with a blank line becomes `\n# AUTO-GEN\n` |
| ShellEditExamples.ReplaceIndentedWithCommand | install/add_test.go:75-86 | `\n  # AUTO-GEN\n` with `my cmd` becomes `\nmy cmd # AUTO-GEN\n` |
| ShellEditExamples.ReplaceExact | install/add_test.go:61-73 | `\n# AUTO-GEN\n` with `my cmd` becomes `\nmy cmd # AUTO-GEN\n` |
| ShellEditExamples.RemoveTwoTagged | install/add_test.go:187-197 | `\n# AUTO-GEN\n# AUTO-GENERATED` has two tagged lines and is refused |
| ShellEditExamples.RemoveSingleTagged | install/add_test.go:198-207 | `abc\n# AUTO-GEN` becomes `abc` |
| ShellEditExamples.RemoveWrongTag | install/add_test.go:208-218 | `abc\n# AUTO-GEN` with `AUTO-GENE` stays unchanged |
| ShellEditFindings.ShortForCommentNoMatch | install/add.go:22 | a line shorter than `# ` plus the comment never carries the tag |
| ShellEditFindings.UntrimmedCommentUntagged | install/add.go:9-22 | with a blank line and a comment that has white space at an end, the combined line does not carry the comment's tag |
| ShellEditFindings.UntrimmedAddOnce | install/add.go:99-138 | with the comment `" X"`, adding to an empty script writes `# X` |
| ShellEditFindings.UntrimmedAddAgain | install/add.go:99-138 | adding `" X"` again to `# X` appends a second `# X` behind an empty line |
| ShellEditFindings.UntrimmedRemoveKeeps | install/add.go:143-174 | removing `" X"` from `# X` leaves the text as it is |
| ShellEditFindings.AddToShellFileTrimmed | install/add.go:99-138 | agrees with the code on trimmed comments; after success some line carries the trimmed comment's tag |
| ShellEditFindings.RemoveFromShellFileTrimmed | install/add.go:143-174 | agrees with the code on trimmed comments; content without the trimmed tag comes back unchanged |
| ShellEditFindings.AddedLineTagged | install/add.go:118-137 | after a successful add with a trimmed comment some line carries the tag |
| ShellEditFindings.AddTrimmedIdempotent | install/add.go:99-138 | with the comment trimmed once, adding twice is adding once for every comment |
| ShellEditFindings.AddTrimmedThenRemove | install/add.go:99-174 | with the comment trimmed once, removing after adding gives back untagged content that is empty or does not end in a line break, for every comment |
| FileSystem.PathJoin | replace/gogit.go:122 | the length of a joined path, with an empty directory dropped |
| FileSystem.PathJoinDistinct | gogitinstall/install.go:23-29 | names of different lengths give different paths under one directory |
| FileSystem.Exists | replace/gogit.go:124 | `helper.DoesPathExistErr` as membership among files and directories |
| FileSystem.ReadFile | install/ensure.go:9-12 | reading succeeds exactly on a regular file, gives its content, and otherwise reports the path as not found |
| FileSystem.WriteFile | install/ensure.go:19-21 | a write succeeds exactly off directories and refusing paths; afterwards the file holds the data and every other path reads as before |
| FileSystem.Copy | replace/gogit.go:145-147 | a copy succeeds exactly when the source is a file and the destination writable, and sets the destination to the source's bytes |
| FileSystem.RemoveFile | replace/gogit.go:235-237 | a removal succeeds exactly on a writable file, which is then gone, and every other path reads as before |
| FileSystem.OverwriteRestores | install/ensure.go:19-21 | writing a file's old content back over a new one restores the state |
| FileSystem.RewriteSame | install/ensure.go:19-21 | writing a file's own content back changes nothing |
| GoModReplace.PathsDistinct | replace/gogit.go:58 | go.mod and go.mod.b are different paths, and neither is the directory |
| GoModReplace.IsLocalDirective | replace/gogit.go:86-90 | `strings.HasPrefix` of `..` or `./` on the new path; its partner is `GoModReplace.IsLocalDirectiveIff` |
| GoModReplace.IsLocalDirectiveIff | replace/gogit.go:86-90 | a directive is local exactly when its new path starts with `..` or `./`; nothing else about it matters |
| GoModReplace.LocalDirectives | replace/gogit.go:76-84 | the result holds exactly the local directives and is no longer than the input |
| GoModReplace.LocalDirectivesAppend | replace/gogit.go:76-84 | the filter keeps file order: it distributes over concatenation |
| GoModReplace.DropReplace | replace/gogit.go:189 | the directives with the given old path and version go, all others stay |
| GoModReplace.DropAll | replace/gogit.go:188-192 | after dropping by each local directive's key, exactly the directives with another key stay; the aliasing of the source's pointers is not modelled (see "Left out") |
| GoModReplace.Stripped | replace/gogit.go:186-195 | no local directive survives, a non-local one survives unless it shares its key with a local one, and the rest of go.mod is kept |
| GoModReplace.IsStaged | replace/gogit.go:109-117 | staged exactly for Added, Copied, Modified, Renamed and UpdatedButUnmerged |
| GoModReplace.NotStagedCodes | replace/gogit.go:109-117 | not staged exactly for Unmodified, Untracked and Deleted |
| GoModReplace.GetGoModFilepathAndData | replace/gogit.go:37-74 | a missing directory, then a missing go.mod, then an unreadable go.mod are the errors in that order; otherwise go.mod's path and bytes |
| GoModReplace.RemoveLocalDirectivesInFile | replace/gogit.go:181-207 | without a local directive nothing is written; otherwise the stripped, formatted manifest is written, or `WriteModFailed` with nothing written |
| GoModReplace.RemoveLocalReplacesFromGomod | replace/gogit.go:121-179 | an existing backup refuses the strip with the file system untouched; then go.mod problems, then a refused backup write, fail with nothing written; a strip that changes anything has written the backup; success means the backup is new |
| GoModReplace.UndoRemovingLocalReplacesFromGomod | replace/gogit.go:210-242 | go.mod problems come first, then a missing backup gives `BackupDoesNotExist`, then a failed copy, all with nothing written; a refused removal of the backup leaves go.mod restored and the backup in place; success exactly when go.mod and the backup are files and both writable, and then go.mod holds the backup's bytes and the backup is gone |
| GoModReplaceProperties.StripFailsEarly | replace/gogit.go:133-137 | with no backup, a missing directory or go.mod fails the strip before anything is written |
| GoModReplaceProperties.StripAfterBackup | replace/gogit.go:145-174 | once go.mod is read, the backup is a byte-exact copy that stays on a parse or status failure; go.mod is rewritten to the stripped manifest exactly when the flag is off or go.mod is staged and some directive is local |
| GoModReplaceProperties.StripBlocksStrip | replace/gogit.go:124-131 | after a successful strip every further strip is refused until an undo |
| GoModReplaceProperties.UndoRestores | replace/gogit.go:229-237 | with go.mod and the backup writable, undo sets go.mod to the backup's bytes and deletes the backup |
| GoModReplaceProperties.UndoIgnoresFlag | replace/gogit.go:210-242 | the staging flag makes no difference to undo |
| GoModReplaceProperties.UndoTwice | replace/gogit.go:219-227 | after a successful undo, a second one finds no backup |
| GoModReplaceProperties.StripThenUndo | replace/gogit.go:145-237 | any strip that changed the file system, failed or not, followed by undo gives back exactly the original file system when go.mod is writable |
| GoModReplaceProperties.StripSucceededThenUndo | replace/gogit.go:145-237 | a successful strip followed by undo gives back the original file system |
| GoModReplaceProperties.DirectiveExamples | replace/gogit.go:86-90 | `../aduu-dev-utils` and `./b` are local; `aduu.dev/hello/world`, `/abs/b` and `.` are not; the filter keeps the local directive and drops the other |
| GoModReplaceProperties.LocalDirectivesSingle | replace/gogit.go:76-84 | the filter on one directive keeps it exactly when it is local |
| InstallEnsure.ApplyEdit | install/ensure.go:8-24 | a missing file is `NotFound`; any error writes nothing; success exactly when the file exists, the edit succeeds and the file is writable, and then only that file changes, to the edit's result |
| InstallEnsure.EnsureRemoveComment | install/ensure.go:8-24 | a missing file or a refused removal writes nothing and reports the cause; on success the file holds its content with the tagged line removed; no other path changes |
| InstallEnsure.EnsureAddLinesWithComment | install/ensure.go:26-43 | a missing file or a validation failure writes nothing; on success the file holds the added-to content; no other path changes |
| InstallProperties.EnsureAddThenRemove | install/ensure.go:8-43 | on a writable untagged file that is empty or does not end in a line break, adding and then removing gives back the file system |
| InstallProperties.EnsureAddWrites | install/ensure.go:26-43 | adding to a writable file stores exactly the editor's result |
| InstallProperties.EnsureRemoveWrites | install/ensure.go:8-24 | removing from a writable file stores exactly the editor's result |
| InstallProperties.EnsureAddIdempotent | install/ensure.go:26-43 | ensuring the same tagged line twice writes the same file system twice |
| InstallProperties.EnsureRemoveUntagged | install/ensure.go:8-24 | removing from a writable untagged file leaves the file system as it was |
| InstallRemove.Remove | install/remove.go:13-40 | a missing hooks folder fails with nothing written; a pre-commit failure writes nothing; success means both hooks existed, their removals succeeded and each now holds its content with the tagged line removed; no other path changes |
| InstallProperties.RemoveMissingPreCommit | install/remove.go:26-28 | a missing pre-commit fails before post-commit is touched |
| InstallProperties.RemoveMissingPostCommit | install/remove.go:30-32 | a missing post-commit fails after pre-commit has been rewritten |
| InstallProperties.RemoveSucceeded | install/remove.go:26-32 | with the hooks folder there, both hooks writable and neither removal refused, removal succeeds and each hook holds its content with the tagged line removed |
| InstallProperties.RemoveUntagged | install/remove.go:26-32 | untagged writable hooks, empty ones included, come through unchanged |
| GogitInstall.HooksFolder | gogitinstall/install.go:19-21 | `<base>/.git/hooks`; its partner is `GogitInstall.HookPaths` |
| GogitInstall.PreCommitFilepath | gogitinstall/install.go:23-25 | the pre-commit hook inside the hooks folder |
| GogitInstall.PostCommitFilepath | gogitinstall/install.go:27-29 | the post-commit hook inside the hooks folder |
| GogitInstall.HookPaths | gogitinstall/install.go:19-29 | the hooks are `<base>/.git/hooks/pre-commit` and `<base>/.git/hooks/post-commit`, different from each other and from the folder |
| GogitInstall.InstallHooks | gogitinstall/install.go:49-90 | a missing folder, then an existing pre-commit, then an existing post-commit refuse with nothing written; success exactly when the folder exists, neither hook does and both are writable, and then both hooks hold their fixed contents; no other path changes |
| InstallProperties.InstallTwice | gogitinstall/install.go:61-68 | after a successful install a second one is refused because pre-commit exists |
| InstallProperties.InstallPartialWrite | gogitinstall/install.go:79-85 | pre-commit is written first, so a failed post-commit write leaves it in place |
| InstallProperties.InstallNeverOverwrites | gogitinstall/install.go:61-77 | an existing hook is never overwritten, and the install fails |

## Left out

- Command-line wiring, flag parsing and exit codes (the `gogitcmd` package) are not part of this model.
- The go-git repository, worktree and status queries are left out. The staging state of go.mod is an input, and only the classification switch is modelled.
- The go.mod grammar is left out. `modfile.Parse` and `Format` are the function parameters of `ModPort`. `DropReplace` is a filter on the directive list, and `Format` returns the text directly; the error returns of `DropReplace` and of `Format` (replace/gogit.go:195-198) are not modelled.
- The real file system is replaced by a map with a set of directories. File modes, including the executable bit of 0755, are not modelled, and neither are missing parent directories.
- Write and removal failures are modelled as a write or removal of a `readOnly` path. The errors that `helper.DoesPathExistErr` can return are not modelled; existence is a plain membership test.
- Read errors are not modelled: `FileSystem.ReadFile` succeeds on every regular file. So an existing go.mod that cannot be read (replace/gogit.go:68-71), a hook file that cannot be read (install/ensure.go:9-12 and 28-31) and a failed read of the source inside `copy2.Copy` never happen in the model.
- `filepath.Abs` and `filepath.Join` normalisation are not modelled, and `/` is the separator. The backup path is built from the raw argument and go.mod's path from the absolute one; both are taken to name the same directory.
- Copying a directory with `copy2.Copy` is not modelled; the model copies one regular file.
- klog logging and the wrapping of error messages are left out. Errors are datatype constructors.
- The race between checking for the backup and creating it is left out; everything runs in one thread.
- `strings.TrimSpace` is modelled on ASCII white space only; Unicode spaces are not.
- Texts and comments are sequences of Unicode characters. Go strings that are not valid UTF-8 are not modelled, and neither is the compile error such a comment causes at install/add.go:22-25: `regexp.QuoteMeta` copies the invalid bytes unchanged and the parser rejects them, so both adding and removing would return that error.
- The error path after `regexp.Compile` cannot happen for a comment that is valid UTF-8, because the comment is quoted, so it is not modelled. The same holds for the empty go.mod path check in `RemoveLocalReplacesFromGomod`.
- `defaultBashComment`, `hooksPath` and the path helpers of package `install` are not part of this model. The comment is a parameter of `Remove`, and the hook paths of `gogitinstall/install.go` are reused.
- GoModReplace.DropAll: reads each drop key from its own copy of the local directive. In the source, `removeLocalReplaceDirectives` returns pointers into `file.Replace`, and each `DropReplace` call zeroes every matching entry in place. When two local directives share their old path and version (`replace a => ../a` written twice), the first call clears both, and the second call is made with the cleared entry's empty key (replace/gogit.go:188-192). What `DropReplace` then does depends on the x/mod version, which is not part of this model; with a zeroed entry and no syntax line it can panic after go.mod.b is written. The model drops both directives and carries on, so `Stripped`, `RemoveLocalDirectivesInFile` and `GoModReplaceProperties.StripAfterBackup` state a successful rewrite for such a go.mod, where the program may fail.
- GoModReplace.RemoveLocalReplacesFromGomod: its own contract states the refusals before and at the backup write, and the lock and backup facts. What happens after the backup is written is stated by `GoModReplaceProperties.StripAfterBackup`, which needs no path to be both a file and a directory.
- GoModReplaceProperties.StripThenUndo: requires go.mod to be writable and no path to be both a file and a directory. On a real file system a failed restore write can leave the backup behind.

## Findings

| source | as written | input that shows it | evidently intended | confidence | as-written member | corrected member |
|---|---|---|---|---|---|---|
| install/add.go:9-11 and install/add.go:22 | `combinedLine` writes the trimmed comment, but the tag pattern quotes the comment untrimmed, so a comment with white space around it never matches the line that was written for it: adding again appends a second line, and removing leaves the line | comment `" X"`: adding to an empty script gives `# X`, adding again gives `# X\n\n# X`, removing from `# X` gives `# X` | the comment is trimmed once and the trimmed text is both written and searched for, so adding is idempotent and removing undoes adding for every comment | not executed | ShellEditFindings.UntrimmedAddAgain | ShellEditFindings.AddToShellFileTrimmed |

The code as written is what `ShellEdit` models, and the hook glue calls it.
`ShellEditFindings.UntrimmedCommentUntagged` states the general case: with a
blank line and a comment that has white space at an end, the combined line
does not carry its own tag. `ShellEditFindings.UntrimmedAddOnce`,
`UntrimmedAddAgain` and `UntrimmedRemoveKeeps` give the concrete texts. The
corrected `AddToShellFileTrimmed` and `RemoveFromShellFileTrimmed` agree with
the code on trimmed comments. For them `AddTrimmedIdempotent` and
`AddTrimmedThenRemove` hold with no condition on the comment's white space.

=== FILE: ensure.dfy ===
/** install/ensure.go: read a shell file, apply the tagged-line editor, and
    write the result back to the same file. */
module InstallEnsure {
  import opened Results
  import opened FileSystem
  import opened ShellEdit

  /** A file error, or the editor's refusal. */
  datatype EnsureError = Io(ioCause: IoError) | Edit(editCause: EditError)

  /** The read–edit–write step shared by both functions: `edited` is the editor
      applied to the file's content. */
  function ApplyEdit(fs: FS, file: string, edited: string -> Result<string, EditError>): (r: Outcome<EnsureError>)
    ensures file !in fs.files ==> r == Outcome(fs, Some(Io(NotFound(file))))
    ensures r.err != None ==> r.fs == fs
    ensures r.err == None <==>
      file in fs.files && edited(fs.files[file]).Ok? && file !in fs.readOnly && file !in fs.dirs
    ensures r.err == None ==> r.fs == fs.(files := fs.files[file := edited(fs.files[file]).value])
    ensures file in fs.files && edited(fs.files[file]).Err? ==>
      r == Outcome(fs, Some(Edit(edited(fs.files[file]).error)))
    ensures forall p :: p != file ==> ReadFile(r.fs, p) == ReadFile(fs, p)
  {
    match ReadFile(fs, file)
    case Err(e) => Outcome(fs, Some(Io(e)))
    case Ok(content) =>
      match edited(content)
      case Err(e) => Outcome(fs, Some(Edit(e)))
      case Ok(newContent) =>
        match WriteFile(fs, file, newContent)
        case Err(e) => Outcome(fs, Some(Io(e)))
        case Ok(written) => Outcome(written, None)
  }

  /** `EnsureRemoveComment`. The file is written back even when nothing was
      removed, so a file that refuses writes fails even then. */
  function EnsureRemoveComment(fs: FS, file: string, comment: string): (r: Outcome<EnsureError>)
    ensures file !in fs.files ==> r == Outcome(fs, Some(Io(NotFound(file))))
    ensures r.err != None ==> r.fs == fs
    ensures file in fs.files && RemoveFromShellFile(fs.files[file], comment).Err? ==>
      r == Outcome(fs, Some(Edit(RemoveFromShellFile(fs.files[file], comment).error)))
    ensures r.err == None ==>
      && file in fs.files
      && RemoveFromShellFile(fs.files[file], comment).Ok?
      && r.fs == fs.(files := fs.files[file := RemoveFromShellFile(fs.files[file], comment).value])
    ensures file in fs.files && RemoveFromShellFile(fs.files[file], comment).Ok? && file !in fs.readOnly && file !in fs.dirs ==>
      r.err == None
    ensures forall p :: p != file ==> ReadFile(r.fs, p) == ReadFile(fs, p)
  {
    ApplyEdit(fs, file, content => RemoveFromShellFile(content, comment))
  }

  /** `EnsureAddLinesWithComment`. */
  function EnsureAddLinesWithComment(fs: FS, file: string, line: string, comment: string): (r: Outcome<EnsureError>)
    ensures file !in fs.files ==> r == Outcome(fs, Some(Io(NotFound(file))))
    ensures r.err != None ==> r.fs == fs
    ensures file in fs.files && Validate(line, comment).Some? ==>
      r == Outcome(fs, Some(Edit(Validate(line, comment).value)))
    ensures r.err == None ==>
      && file in fs.files
      && AddToShellFile(fs.files[file], line, comment).Ok?
      && r.fs == fs.(files := fs.files[file := AddToShellFile(fs.files[file], line, comment).value])
    ensures file in fs.files && Validate(line, comment).None? && file !in fs.readOnly && file !in fs.dirs ==>
      r.err == None
    ensures forall p :: p != file ==> ReadFile(r.fs, p) == ReadFile(fs, p)
  {
    ApplyEdit(fs, file, content => AddToShellFile(content, line, comment))
  }
}

=== FILE: file_system.dfy ===
/** The slice of the file system the tools touch, as a value: file contents by
    path, the set of directories, and the paths a write or a removal fails on.
    Every operation returns the new state instead of changing one in place. */
module FileSystem {
  import opened Results

  /** The failures of the file operations. */
  datatype IoError =
    | NotFound(path: string)
    | WriteFailed(path: string)
    | RemoveFailed(path: string)

  /** `files` maps each regular file to its content; `dirs` holds the
      directories; a write or a removal of a path in `readOnly` fails (standing
      for permission and device errors). */
  datatype FS = FS(files: map<string, string>, dirs: set<string>, readOnly: set<string>)

  /** The state after a Go function that returns only an `error`: whatever it
      already wrote stays written, and `err` is `None` exactly when it returned nil. */
  datatype Outcome<+E> = Outcome(fs: FS, err: Option<E>)

  /** `filepath.Join(dir, name)` for clean operands: an empty directory is dropped. */
  function PathJoin(dir: string, name: string): (p: string)
    ensures |p| == if dir == [] then |name| else |dir| + 1 + |name|
  {
    if dir == [] then name else dir + "/" + name
  }

  /** Names of different lengths give different paths under the same directory. */
  lemma PathJoinDistinct(dir: string, a: string, b: string)
    requires |a| != |b|
    ensures PathJoin(dir, a) != PathJoin(dir, b)
  {
  }

  /** No path is both a regular file and a directory. */
  predicate Valid(fs: FS) {
    forall p :: p in fs.files ==> p !in fs.dirs
  }

  /** Writing a file's old content back over a new one restores the state. */
  lemma OverwriteRestores(fs: FS, p: string, data: string)
    requires p in fs.files
    ensures fs.(files := fs.files[p := data][p := fs.files[p]]) == fs
  {
    assert fs.files[p := data][p := fs.files[p]] == fs.files;
  }

  /** Writing a file's own content back changes nothing. */
  lemma RewriteSame(fs: FS, p: string)
    requires p in fs.files
    ensures fs.(files := fs.files[p := fs.files[p]]) == fs
  {
    assert fs.files[p := fs.files[p]] == fs.files;
  }

  /** `helper.DoesPathExistErr`: a file or a directory is there. */
  predicate Exists(fs: FS, p: string) {
    p in fs.files || p in fs.dirs
  }

  /** `ioutil.ReadFile`. */
  function ReadFile(fs: FS, p: string): (r: Result<string, IoError>)
    ensures r.Ok? <==> p in fs.files
    ensures r.Ok? ==> r.value == fs.files[p]
    ensures r.Err? ==> r.error == NotFound(p)
  {
    if p in fs.files then Ok(fs.files[p]) else Err(NotFound(p))
  }

  /** `ioutil.WriteFile`: creates or truncates the file; fails on a directory
      and on a path that refuses writes. */
  function WriteFile(fs: FS, p: string, data: string): (r: Result<FS, IoError>)
    ensures r.Ok? <==> p !in fs.readOnly && p !in fs.dirs
    ensures r.Err? ==> r.error == WriteFailed(p)
    ensures r.Ok? ==> ReadFile(r.value, p) == Ok(data)
    ensures r.Ok? ==> forall q :: q != p ==> ReadFile(r.value, q) == ReadFile(fs, q)
    ensures r.Ok? ==> r.value.dirs == fs.dirs && r.value.readOnly == fs.readOnly
  {
    if p in fs.readOnly || p in fs.dirs then Err(WriteFailed(p))
    else Ok(fs.(files := fs.files[p := data]))
  }

  /** `copy2.Copy` of one regular file: read the source, write the destination. */
  function Copy(fs: FS, src: string, dst: string): (r: Result<FS, IoError>)
    ensures r.Ok? <==> src in fs.files && dst !in fs.readOnly && dst !in fs.dirs
    ensures r.Ok? ==> r.value == fs.(files := fs.files[dst := fs.files[src]])
  {
    match ReadFile(fs, src)
    case Err(e) => Err(e)
    case Ok(data) => WriteFile(fs, dst, data)
  }

  /** `os.Remove` of a regular file. */
  function RemoveFile(fs: FS, p: string): (r: Result<FS, IoError>)
    ensures r.Ok? <==> p in fs.files && p !in fs.readOnly
    ensures r.Ok? ==> !Exists(r.value, p) || p in fs.dirs
    ensures r.Ok? ==> forall q :: q != p ==> ReadFile(r.value, q) == ReadFile(fs, q)
    ensures r.Ok? ==> r.value.dirs == fs.dirs && r.value.readOnly == fs.readOnly
  {
    if p !in fs.files then Err(NotFound(p))
    else if p in fs.readOnly then Err(RemoveFailed(p))
    else Ok(fs.(files := fs.files - {p}))
  }
}

=== FILE: hooks.dfy ===
/** gogitinstall/install.go: install the two git hooks that strip local
    replace directives around a commit, without ever overwriting a hook. */
module GogitInstall {
  import opened Results
  import opened FileSystem

  /** The errors of `InstallHooks`. */
  datatype InstallError =
    | HooksFolderDoesNotExist
    | PreCommitDoesExistAlready
    | PostCommitExistsAlready
    | Io(cause: IoError)

  /** `hooksPath`, with `/` as the path separator. */
  const HooksPath: string := ".git/hooks"

  function HooksFolder(base: string): string {
    PathJoin(base, HooksPath)
  }

  /** `preCommitFilepath`. */
  function PreCommitFilepath(base: string): string {
    PathJoin(HooksFolder(base), "pre-commit")
  }

  /** `postCommitFilepath`. */
  function PostCommitFilepath(base: string): string {
    PathJoin(HooksFolder(base), "post-commit")
  }

  /** The hooks live at `<base>/.git/hooks/pre-commit` and
      `<base>/.git/hooks/post-commit`, three different paths with the folder. */
  lemma HookPaths(base: string)
    ensures base != [] ==> PreCommitFilepath(base) == base + "/.git/hooks/pre-commit"
    ensures base != [] ==> PostCommitFilepath(base) == base + "/.git/hooks/post-commit"
    ensures base == [] ==> PreCommitFilepath(base) == ".git/hooks/pre-commit"
    ensures PreCommitFilepath(base) != PostCommitFilepath(base)
    ensures PreCommitFilepath(base) != HooksFolder(base) && PostCommitFilepath(base) != HooksFolder(base)
  {
    PathJoinDistinct(HooksFolder(base), "pre-commit", "post-commit");
    if base != [] {
      assert base + "/" + HooksPath + "/" + "pre-commit" == base + "/.git/hooks/pre-commit";
      assert base + "/" + HooksPath + "/" + "post-commit" == base + "/.git/hooks/post-commit";
    }
  }

  /** `preCommitContent`: strip the local replaces and stage the stripped go.mod. */
  const PreCommitContent: string :=
    "#!/bin/bash\n\nset -o xtrace\n\naduu gogit replace .\ngit add go.mod"

  /** `postCommitContent`: restore go.mod from the backup. */
  const PostCommitContent: string :=
    "#!/bin/bash\n\nset -o xtrace\n\naduu gogit replace --undo ."

  /** `InstallHooks`: the hooks folder must exist and neither hook may; then
      pre-commit is written, then post-commit. */
  function InstallHooks(fs: FS, base: string): (r: Outcome<InstallError>)
    ensures !Exists(fs, HooksFolder(base)) ==> r == Outcome(fs, Some(HooksFolderDoesNotExist))
    ensures Exists(fs, HooksFolder(base)) && Exists(fs, PreCommitFilepath(base)) ==>
      r == Outcome(fs, Some(PreCommitDoesExistAlready))
    ensures Exists(fs, HooksFolder(base)) && !Exists(fs, PreCommitFilepath(base)) && Exists(fs, PostCommitFilepath(base)) ==>
      r == Outcome(fs, Some(PostCommitExistsAlready))
    ensures r.err == None <==>
      && Exists(fs, HooksFolder(base))
      && !Exists(fs, PreCommitFilepath(base)) && !Exists(fs, PostCommitFilepath(base))
      && PreCommitFilepath(base) !in fs.readOnly && PostCommitFilepath(base) !in fs.readOnly
    ensures r.err == None ==>
      r.fs == fs.(files := fs.files[PreCommitFilepath(base) := PreCommitContent][PostCommitFilepath(base) := PostCommitContent])
    ensures forall p :: p != PreCommitFilepath(base) && p != PostCommitFilepath(base) ==> ReadFile(r.fs, p) == ReadFile(fs, p)
  {
    var pre, post := PreCommitFilepath(base), PostCommitFilepath(base);
    HookPaths(base);
    if !Exists(fs, HooksFolder(base)) then Outcome(fs, Some(HooksFolderDoesNotExist))
    else if Exists(fs, pre) then Outcome(fs, Some(PreCommitDoesExistAlready))
    else if Exists(fs, post) then Outcome(fs, Some(PostCommitExistsAlready))
    else
      match WriteFile(fs, pre, PreCommitContent)
      case Err(e) => Outcome(fs, Some(Io(e)))
      case Ok(withPre) =>
        match WriteFile(withPre, post, PostCommitContent)
        case Err(e) => Outcome(withPre, Some(Io(e)))
        case Ok(withBoth) => Outcome(withBoth, None)
  }
}

=== FILE: install_properties.dfy ===
/** Properties of the hook-file glue: install/ensure.go, install/remove.go and
    gogitinstall/install.go over the file-system model. */
module InstallProperties {
  import opened Results
  import opened Text
  import opened FileSystem
  import opened ShellEdit
  import opened ShellEditProperties
  import opened InstallEnsure
  import opened InstallRemove
  import opened GogitInstall

  /** A file that can be written: a regular file outside the refusing paths. */
  predicate Writable(fs: FS, file: string) {
    file in fs.files && file !in fs.readOnly && file !in fs.dirs
  }

  // ---------------------------------------------------------------------------
  // install/ensure.go
  // ---------------------------------------------------------------------------

  /** Adding a tagged line to a writable file that lacked the tag and then
      removing the tag gives back the file system, when the file's content is
      empty or does not end in a line break. */
  lemma EnsureAddThenRemove(fs: FS, file: string, line: string, comment: string)
    requires Writable(fs, file)
    requires Validate(line, comment).None? && IsTrimmed(comment)
    requires NoMatch(Split(fs.files[file]), comment)
    requires fs.files[file] == [] || fs.files[file][|fs.files[file]| - 1] != '\n'
    ensures EnsureAddLinesWithComment(fs, file, line, comment).err == None
    ensures EnsureRemoveComment(EnsureAddLinesWithComment(fs, file, line, comment).fs, file, comment) == Outcome(fs, None)
  {
    var content := fs.files[file];
    var text := AddToShellFile(content, line, comment).value;
    assert AddToShellFile(content, line, comment) == Ok(text) && RemoveFromShellFile(text, comment) == Ok(content) by {
      AddThenRemoveRestores(content, line, comment);
    }
    EnsureAddWrites(fs, file, line, comment, text);
    var fs1 := fs.(files := fs.files[file := text]);
    assert Writable(fs1, file) && fs1.files[file] == text;
    EnsureRemoveWrites(fs1, file, comment, content);
    OverwriteRestores(fs, file, text);
  }

  /** Adding that yields `result` on a writable file stores exactly `result`. */
  lemma EnsureAddWrites(fs: FS, file: string, line: string, comment: string, result: string)
    requires Writable(fs, file) && AddToShellFile(fs.files[file], line, comment) == Ok(result)
    ensures EnsureAddLinesWithComment(fs, file, line, comment) == Outcome(fs.(files := fs.files[file := result]), None)
  {
  }

  /** Removal that yields `result` on a writable file stores exactly `result`. */
  lemma EnsureRemoveWrites(fs: FS, file: string, comment: string, result: string)
    requires Writable(fs, file) && RemoveFromShellFile(fs.files[file], comment) == Ok(result)
    ensures EnsureRemoveComment(fs, file, comment) == Outcome(fs.(files := fs.files[file := result]), None)
  {
  }

  /** Ensuring the same tagged line twice writes the same file system twice. */
  lemma EnsureAddIdempotent(fs: FS, file: string, line: string, comment: string)
    requires Writable(fs, file) && Validate(line, comment).None? && IsTrimmed(comment)
    ensures var once := EnsureAddLinesWithComment(fs, file, line, comment);
      once.err == None && EnsureAddLinesWithComment(once.fs, file, line, comment) == once
  {
    var content := fs.files[file];
    var text := AddToShellFile(content, line, comment).value;
    assert AddToShellFile(content, line, comment) == Ok(text) && AddToShellFile(text, line, comment) == Ok(text) by {
      AddToShellFileIdempotent(content, line, comment);
    }
    EnsureAddWrites(fs, file, line, comment, text);
    var once := fs.(files := fs.files[file := text]);
    assert Writable(once, file) && once.files[file] == text;
    EnsureAddWrites(once, file, line, comment, text);
    RewriteSame(once, file);
  }

  /** Removing from a writable file without the tag succeeds and leaves it byte-identical. */
  lemma EnsureRemoveUntagged(fs: FS, file: string, comment: string)
    requires Writable(fs, file) && NoMatch(Split(fs.files[file]), comment)
    ensures EnsureRemoveComment(fs, file, comment) == Outcome(fs, None)
  {
    RewriteSame(fs, file);
  }

  // ---------------------------------------------------------------------------
  // install/remove.go
  // ---------------------------------------------------------------------------

  /** A missing pre-commit hook stops the removal before post-commit is touched. */
  lemma RemoveMissingPreCommit(fs: FS, base: string, comment: string)
    requires Exists(fs, HooksFolder(base)) && PreCommitFilepath(base) !in fs.files
    ensures Remove(fs, base, comment) == Outcome(fs, Some(Ensure(EnsureError.Io(NotFound(PreCommitFilepath(base))))))
  {
  }

  /** A missing post-commit hook is an error too, but by then pre-commit has been rewritten. */
  lemma RemoveMissingPostCommit(fs: FS, base: string, comment: string)
    requires Exists(fs, HooksFolder(base)) && Writable(fs, PreCommitFilepath(base))
    requires RemoveFromShellFile(fs.files[PreCommitFilepath(base)], comment).Ok?
    requires PostCommitFilepath(base) !in fs.files
    ensures var r := Remove(fs, base, comment);
      && r.err == Some(Ensure(EnsureError.Io(NotFound(PostCommitFilepath(base)))))
      && r.fs == fs.(files := fs.files[PreCommitFilepath(base) :=
           RemoveFromShellFile(fs.files[PreCommitFilepath(base)], comment).value])
  {
    HookPaths(base);
  }

  /** With the folder there, both hooks writable and neither removal refused,
      removal succeeds and each hook holds its content with the tagged line removed. */
  lemma RemoveSucceeded(fs: FS, base: string, comment: string)
    requires Exists(fs, HooksFolder(base))
    requires Writable(fs, PreCommitFilepath(base)) && Writable(fs, PostCommitFilepath(base))
    requires RemoveFromShellFile(fs.files[PreCommitFilepath(base)], comment).Ok?
    requires RemoveFromShellFile(fs.files[PostCommitFilepath(base)], comment).Ok?
    ensures var pre, post := PreCommitFilepath(base), PostCommitFilepath(base);
      Remove(fs, base, comment) == Outcome(fs.(files := fs.files
        [pre := RemoveFromShellFile(fs.files[pre], comment).value]
        [post := RemoveFromShellFile(fs.files[post], comment).value]), None)
  {
    HookPaths(base);
  }

  /** Hooks without the tag, empty ones included, come through unchanged. */
  lemma RemoveUntagged(fs: FS, base: string, comment: string)
    requires Exists(fs, HooksFolder(base))
    requires Writable(fs, PreCommitFilepath(base)) && Writable(fs, PostCommitFilepath(base))
    requires NoMatch(Split(fs.files[PreCommitFilepath(base)]), comment)
    requires NoMatch(Split(fs.files[PostCommitFilepath(base)]), comment)
    ensures Remove(fs, base, comment) == Outcome(fs, None)
  {
    EnsureRemoveUntagged(fs, PreCommitFilepath(base), comment);
    EnsureRemoveUntagged(fs, PostCommitFilepath(base), comment);
  }

  // ---------------------------------------------------------------------------
  // gogitinstall/install.go
  // ---------------------------------------------------------------------------

  /** Installing twice: the second run finds pre-commit and changes nothing. */
  lemma InstallTwice(fs: FS, base: string)
    requires InstallHooks(fs, base).err == None
    ensures var once := InstallHooks(fs, base).fs;
      InstallHooks(once, base) == Outcome(once, Some(PreCommitDoesExistAlready))
  {
    HookPaths(base);
    var once := InstallHooks(fs, base).fs;
    assert PreCommitFilepath(base) in once.files;
    assert Exists(once, HooksFolder(base));
  }

  /** Pre-commit is written first: when only the post-commit write fails,
      pre-commit stays written. */
  lemma InstallPartialWrite(fs: FS, base: string)
    requires Exists(fs, HooksFolder(base))
    requires !Exists(fs, PreCommitFilepath(base)) && !Exists(fs, PostCommitFilepath(base))
    requires PreCommitFilepath(base) !in fs.readOnly && PostCommitFilepath(base) in fs.readOnly
    ensures InstallHooks(fs, base) == Outcome(
      fs.(files := fs.files[PreCommitFilepath(base) := PreCommitContent]),
      Some(InstallError.Io(WriteFailed(PostCommitFilepath(base)))))
  {
    HookPaths(base);
  }

  /** An existing hook is never overwritten. */
  lemma InstallNeverOverwrites(fs: FS, base: string)
    requires Exists(fs, PreCommitFilepath(base)) || Exists(fs, PostCommitFilepath(base))
    ensures InstallHooks(fs, base).fs == fs && InstallHooks(fs, base).err != None
  {
  }
}

=== FILE: remove.dfy ===
/** install/remove.go: remove the tagged line from both git hooks, pre-commit first. */
module InstallRemove {
  import opened Results
  import opened FileSystem
  import opened ShellEdit
  import opened InstallEnsure
  import opened GogitInstall

  /** The errors of `Remove`. */
  datatype RemoveError = HooksFolderMissing | Ensure(cause: EnsureError)

  /** `Remove`: the hooks folder must exist; then the tag `comment` is removed
      from pre-commit and, only if that worked, from post-commit. A failure on
      post-commit leaves pre-commit rewritten. */
  function Remove(fs: FS, base: string, comment: string): (r: Outcome<RemoveError>)
    ensures !Exists(fs, HooksFolder(base)) ==> r == Outcome(fs, Some(HooksFolderMissing))
    ensures Exists(fs, HooksFolder(base)) && EnsureRemoveComment(fs, PreCommitFilepath(base), comment).err.Some? ==>
      r == Outcome(fs, Some(Ensure(EnsureRemoveComment(fs, PreCommitFilepath(base), comment).err.value)))
    ensures r.err == None ==>
      && PreCommitFilepath(base) in fs.files && PostCommitFilepath(base) in fs.files
      && RemoveFromShellFile(fs.files[PreCommitFilepath(base)], comment).Ok?
      && RemoveFromShellFile(fs.files[PostCommitFilepath(base)], comment).Ok?
      && r.fs == fs.(files := fs.files
           [PreCommitFilepath(base) := RemoveFromShellFile(fs.files[PreCommitFilepath(base)], comment).value]
           [PostCommitFilepath(base) := RemoveFromShellFile(fs.files[PostCommitFilepath(base)], comment).value])
    ensures forall p :: p != PreCommitFilepath(base) && p != PostCommitFilepath(base) ==> ReadFile(r.fs, p) == ReadFile(fs, p)
  {
    HookPaths(base);
    if !Exists(fs, HooksFolder(base)) then Outcome(fs, Some(HooksFolderMissing))
    else
      var afterPre := EnsureRemoveComment(fs, PreCommitFilepath(base), comment);
      if afterPre.err.Some? then Outcome(fs, Some(Ensure(afterPre.err.value)))
      else
        var afterPost := EnsureRemoveComment(afterPre.fs, PostCommitFilepath(base), comment);
        if afterPost.err.Some? then Outcome(afterPost.fs, Some(Ensure(afterPost.err.value)))
        else Outcome(afterPost.fs, None)
  }
}

=== FILE: replace.dfy ===
/** The local-replace transaction of replace/gogit.go: before a commit, save
    go.mod as go.mod.b and drop the replace directives that point into the
    local file system; after the commit, copy the backup back and delete it.
    The backup file is both the saved data and the lock between the two steps. */
module GoModReplace {
  import opened Results
  import opened Text
  import opened FileSystem

  /** One `replace oldPath [oldVersion] => newPath [newVersion]` line of go.mod. */
  datatype Directive = Directive(oldPath: string, oldVersion: string, newPath: string, newVersion: string)

  /** A parsed go.mod: its replace directives in file order, and everything else uninterpreted. */
  datatype Manifest = Manifest(directives: seq<Directive>, rest: string)

  /** The parser and printer of golang.org/x/mod/modfile, taken as given. */
  datatype ModPort = ModPort(parse: string -> Option<Manifest>, format: Manifest -> string)

  /** The staging states of a go-git status entry. */
  datatype StatusCode =
    | Unmodified
    | Untracked
    | Modified
    | Added
    | Deleted
    | Renamed
    | Copied
    | UpdatedButUnmerged

  /** What the repository reports for go.mod: its staging code, or a failure
      opening the repository, its worktree or its status. */
  datatype StatusQuery = StatusOf(code: StatusCode) | StatusUnavailable

  /** The errors of the transaction. */
  datatype ReplaceError =
    | PathDoesNotExist
    | NoGoModFile
    | BackupExists
    | BackupDoesNotExist
    | BackupFailed(cause: IoError)
    | ParseFailed
    | StatusFailed
    | WriteModFailed
    | Io(cause: IoError)

  /** go.mod's path and content as read by `getGoModFilepathAndData`. */
  datatype GoMod = GoMod(path: string, data: string)

  const BackupFilename: string := "go.mod.b"

  function GoModPath(dir: string): string {
    PathJoin(dir, "go.mod")
  }

  function BackupPath(dir: string): string {
    PathJoin(dir, BackupFilename)
  }

  /** go.mod and its backup are different files, and neither is the directory. */
  lemma PathsDistinct(dir: string)
    ensures GoModPath(dir) != BackupPath(dir)
    ensures GoModPath(dir) != dir && BackupPath(dir) != dir
  {
    PathJoinDistinct(dir, "go.mod", BackupFilename);
  }

  // ---------------------------------------------------------------------------
  // Directives
  // ---------------------------------------------------------------------------

  /** `isLocalDirective`: the replacement is a relative file-system path. */
  predicate IsLocalDirective(d: Directive) {
    HasPrefix(d.newPath, "..") || HasPrefix(d.newPath, "./")
  }

  /** Local means: the new path starts with a dot followed by a dot or a slash;
      nothing else about the directive matters. */
  lemma IsLocalDirectiveIff(d: Directive)
    ensures IsLocalDirective(d) <==>
      |d.newPath| >= 2 && d.newPath[0] == '.' && (d.newPath[1] == '.' || d.newPath[1] == '/')
  {
    if |d.newPath| >= 2 {
      assert d.newPath[..2] == [d.newPath[0], d.newPath[1]];
    }
  }

  /** `removeLocalReplaceDirectives`: despite its name it keeps, in order,
      exactly the local directives. */
  function LocalDirectives(ds: seq<Directive>): (ls: seq<Directive>)
    ensures forall d :: d in ls <==> d in ds && IsLocalDirective(d)
    ensures |ls| <= |ds|
    decreases |ds|
  {
    if |ds| == 0 then []
    else
      var last := ds[|ds| - 1];
      LocalDirectives(ds[..|ds| - 1]) + (if IsLocalDirective(last) then [last] else [])
  }

  /** The filter keeps the order: it distributes over concatenation. */
  lemma {:induction false} LocalDirectivesAppend(a: seq<Directive>, b: seq<Directive>)
    ensures LocalDirectives(a + b) == LocalDirectives(a) + LocalDirectives(b)
    decreases |b|
  {
    if |b| == 0 {
      assert a + b == a;
    } else {
      var last := b[|b| - 1];
      assert (a + b)[..|a + b| - 1] == a + b[..|b| - 1];
      LocalDirectivesAppend(a, b[..|b| - 1]);
    }
  }

  /** The key `DropReplace` removes by. */
  function Key(d: Directive): (string, string) {
    (d.oldPath, d.oldVersion)
  }

  /** `file.DropReplace(oldPath, oldVersion)`: every directive with that old
      path and version goes, the others stay in order. */
  function DropReplace(ds: seq<Directive>, key: (string, string)): (r: seq<Directive>)
    ensures forall d :: d in r <==> d in ds && Key(d) != key
    decreases |ds|
  {
    if |ds| == 0 then []
    else
      var last := ds[|ds| - 1];
      DropReplace(ds[..|ds| - 1], key) + (if Key(last) == key then [] else [last])
  }

  /** The keys of a list of directives. */
  function Keys(ds: seq<Directive>): set<(string, string)> {
    set d | d in ds :: Key(d)
  }

  /** The `DropReplace` loop of `removeLocalDirectivesInFile`, one call per directive in `drops`. */
  function DropAll(ds: seq<Directive>, drops: seq<Directive>): (r: seq<Directive>)
    ensures forall d :: d in r <==> d in ds && Key(d) !in Keys(drops)
    decreases |drops|
  {
    if |drops| == 0 then ds
    else
      assert forall d :: d in drops[1..] ==> d in drops;
      assert Keys(drops) == {Key(drops[0])} + Keys(drops[1..]);
      DropAll(DropReplace(ds, Key(drops[0])), drops[1..])
  }

  /** The replace directives left after dropping every local one by its key:
      no local directive survives, and a non-local directive survives unless
      it shares its old path and version with a local one. */
  function Stripped(m: Manifest): (r: Manifest)
    ensures forall d :: d in r.directives ==> d in m.directives && !IsLocalDirective(d)
    ensures forall d :: d in m.directives && Key(d) !in Keys(LocalDirectives(m.directives)) ==> d in r.directives
    ensures r.rest == m.rest
  {
    m.(directives := DropAll(m.directives, LocalDirectives(m.directives)))
  }

  // ---------------------------------------------------------------------------
  // Staging
  // ---------------------------------------------------------------------------

  /** The switch of `isGomodStaged`: these codes mean a modified go.mod is meant to be committed. */
  function IsStaged(code: StatusCode): (staged: bool)
    ensures staged <==> code in {Added, Copied, Modified, Renamed, UpdatedButUnmerged}
  {
    match code
    case Added => true
    case Copied => true
    case Modified => true
    case Renamed => true
    case UpdatedButUnmerged => true
    case _ => false
  }

  /** Unmodified, untracked and deleted are the codes that do not count as staged. */
  lemma NotStagedCodes(code: StatusCode)
    ensures !IsStaged(code) <==> code in {Unmodified, Untracked, Deleted}
  {
  }

  // ---------------------------------------------------------------------------
  // The transaction
  // ---------------------------------------------------------------------------

  /** `getGoModFilepathAndData`: the directory must exist, go.mod must exist in
      it, and must be readable. */
  function GetGoModFilepathAndData(fs: FS, dir: string): (r: Result<GoMod, ReplaceError>)
    ensures !Exists(fs, dir) ==> r == Err(PathDoesNotExist)
    ensures Exists(fs, dir) && !Exists(fs, GoModPath(dir)) ==> r == Err(NoGoModFile)
    ensures Exists(fs, dir) && GoModPath(dir) in fs.dirs && GoModPath(dir) !in fs.files ==>
      r == Err(Io(NotFound(GoModPath(dir))))
    ensures r.Ok? <==> Exists(fs, dir) && GoModPath(dir) in fs.files
    ensures r.Ok? ==> r.value == GoMod(GoModPath(dir), fs.files[GoModPath(dir)])
  {
    if !Exists(fs, dir) then Err(PathDoesNotExist)
    else
      var path := GoModPath(dir);
      if !Exists(fs, path) then Err(NoGoModFile)
      else
        match ReadFile(fs, path)
        case Err(e) => Err(Io(e))
        case Ok(data) => Ok(GoMod(path, data))
  }

  /** `removeLocalDirectivesInFile`: only when some directive is local, drop
      them all and write the formatted result back. */
  function RemoveLocalDirectivesInFile(fs: FS, port: ModPort, m: Manifest, path: string): (r: Outcome<ReplaceError>)
    ensures |LocalDirectives(m.directives)| == 0 ==> r == Outcome(fs, None)
    ensures |LocalDirectives(m.directives)| > 0 && (path in fs.readOnly || path in fs.dirs) ==>
      r == Outcome(fs, Some(WriteModFailed))
    ensures |LocalDirectives(m.directives)| > 0 && path !in fs.readOnly && path !in fs.dirs ==>
      r == Outcome(fs.(files := fs.files[path := port.format(Stripped(m))]), None)
  {
    var locals := LocalDirectives(m.directives);
    if |locals| == 0 then Outcome(fs, None)
    else
      match WriteFile(fs, path, port.format(Stripped(m)))
      case Err(_) => Outcome(fs, Some(WriteModFailed))
      case Ok(written) => Outcome(written, None)
  }

  /** `RemoveLocalReplacesFromGomod`: refuse when the backup exists, find and
      read go.mod, save it as the backup, parse it, and drop the local
      directives unless only staged go.mod files are to be touched and this one
      is not staged. */
  function RemoveLocalReplacesFromGomod(
    fs: FS, port: ModPort, arg: string, workOnStagedOnly: bool, status: StatusQuery
  ): (r: Outcome<ReplaceError>)
    ensures Exists(fs, BackupPath(arg)) ==> r == Outcome(fs, Some(BackupExists))
    ensures !Exists(fs, BackupPath(arg)) && GetGoModFilepathAndData(fs, arg).Err? ==>
      r == Outcome(fs, Some(GetGoModFilepathAndData(fs, arg).error))
    ensures !Exists(fs, BackupPath(arg)) && GetGoModFilepathAndData(fs, arg).Ok? && BackupPath(arg) in fs.readOnly ==>
      r == Outcome(fs, Some(BackupFailed(WriteFailed(BackupPath(arg)))))
    ensures r.fs.dirs == fs.dirs && r.fs.readOnly == fs.readOnly
    ensures r.fs != fs ==> BackupPath(arg) in r.fs.files
    ensures r.err == None ==> BackupPath(arg) in r.fs.files && BackupPath(arg) !in fs.files
  {
    PathsDistinct(arg);
    var backup := BackupPath(arg);
    if Exists(fs, backup) then Outcome(fs, Some(BackupExists))
    else
      match GetGoModFilepathAndData(fs, arg)
      case Err(e) => Outcome(fs, Some(e))
      case Ok(gomod) =>
        match Copy(fs, gomod.path, backup)
        case Err(e) => Outcome(fs, Some(BackupFailed(e)))
        case Ok(saved) =>
          match port.parse(gomod.data)
          case None => Outcome(saved, Some(ParseFailed))
          case Some(m) =>
            if !workOnStagedOnly then RemoveLocalDirectivesInFile(saved, port, m, gomod.path)
            else
              match status
              case StatusUnavailable => Outcome(saved, Some(StatusFailed))
              case StatusOf(code) =>
                if IsStaged(code) then RemoveLocalDirectivesInFile(saved, port, m, gomod.path)
                else Outcome(saved, None)
  }

  /** `UndoRemovingLocalReplacesFromGomod`: find go.mod, require the backup,
      copy it over go.mod and delete it. The staging flag plays no part. */
  function UndoRemovingLocalReplacesFromGomod(fs: FS, arg: string, workOnStaged: bool): (r: Outcome<ReplaceError>)
    ensures GetGoModFilepathAndData(fs, arg).Err? ==> r == Outcome(fs, Some(GetGoModFilepathAndData(fs, arg).error))
    ensures GetGoModFilepathAndData(fs, arg).Ok? && !Exists(fs, BackupPath(arg)) ==>
      r == Outcome(fs, Some(BackupDoesNotExist))
    ensures GetGoModFilepathAndData(fs, arg).Ok? && BackupPath(arg) in fs.dirs && BackupPath(arg) !in fs.files ==>
      r == Outcome(fs, Some(Io(NotFound(BackupPath(arg)))))
    ensures GetGoModFilepathAndData(fs, arg).Ok? && BackupPath(arg) in fs.files && GoModPath(arg) in fs.readOnly ==>
      r == Outcome(fs, Some(Io(WriteFailed(GoModPath(arg)))))
    ensures (&& GetGoModFilepathAndData(fs, arg).Ok? && BackupPath(arg) in fs.files
             && GoModPath(arg) !in fs.readOnly && GoModPath(arg) !in fs.dirs && BackupPath(arg) in fs.readOnly) ==>
      r == Outcome(fs.(files := fs.files[GoModPath(arg) := fs.files[BackupPath(arg)]]), Some(Io(RemoveFailed(BackupPath(arg)))))
    ensures r.err == None <==>
      && GetGoModFilepathAndData(fs, arg).Ok? && BackupPath(arg) in fs.files
      && GoModPath(arg) !in fs.readOnly && GoModPath(arg) !in fs.dirs && BackupPath(arg) !in fs.readOnly
    ensures r.err == None ==>
      && GoModPath(arg) in fs.files && BackupPath(arg) in fs.files
      && r.fs == fs.(files := fs.files[GoModPath(arg) := fs.files[BackupPath(arg)]] - {BackupPath(arg)})
    ensures r.fs.dirs == fs.dirs && r.fs.readOnly == fs.readOnly
  {
    PathsDistinct(arg);
    match GetGoModFilepathAndData(fs, arg)
    case Err(e) => Outcome(fs, Some(e))
    case Ok(gomod) =>
      var backup := BackupPath(arg);
      if !Exists(fs, backup) then Outcome(fs, Some(BackupDoesNotExist))
      else
        match Copy(fs, backup, gomod.path)
        case Err(e) => Outcome(fs, Some(Io(e)))
        case Ok(restored) =>
          match RemoveFile(restored, backup)
          case Err(e) => Outcome(restored, Some(Io(e)))
          case Ok(done) => Outcome(done, None)
  }
}

=== FILE: replace_properties.dfy ===
/** Properties of the strip/undo transaction of replace/gogit.go: the backup
    is the lock and the saved copy, go.mod changes only when it should, and
    undo restores the file system a strip changed. */
module GoModReplaceProperties {
  import opened Results
  import opened FileSystem
  import opened GoModReplace

  /** Whether a strip that parsed `m` rewrites go.mod: the flag is off or go.mod
      is staged, and some directive is local. */
  predicate Rewrites(m: Manifest, workOnStagedOnly: bool, status: StatusQuery) {
    && (!workOnStagedOnly || (status.StatusOf? && IsStaged(status.code)))
    && |LocalDirectives(m.directives)| > 0
  }

  /** Without a backup, a missing directory or go.mod fails the strip before anything is written. */
  lemma StripFailsEarly(fs: FS, port: ModPort, arg: string, flag: bool, status: StatusQuery)
    requires !Exists(fs, BackupPath(arg)) && GetGoModFilepathAndData(fs, arg).Err?
    ensures RemoveLocalReplacesFromGomod(fs, port, arg, flag, status)
      == Outcome(fs, Some(GetGoModFilepathAndData(fs, arg).error))
    ensures !Exists(fs, arg) ==>
      RemoveLocalReplacesFromGomod(fs, port, arg, flag, status) == Outcome(fs, Some(PathDoesNotExist))
  {
  }

  /** Once go.mod is read, the backup is written as a byte-exact copy of it and
      stays whatever happens next; go.mod itself changes exactly when the strip
      rewrites it, to the formatted manifest without local directives. */
  lemma StripAfterBackup(fs: FS, port: ModPort, arg: string, flag: bool, status: StatusQuery)
    requires Valid(fs)
    requires !Exists(fs, BackupPath(arg)) && BackupPath(arg) !in fs.readOnly
    requires GetGoModFilepathAndData(fs, arg).Ok?
    ensures var r := RemoveLocalReplacesFromGomod(fs, port, arg, flag, status);
      var data := fs.files[GoModPath(arg)];
      var saved := fs.files[BackupPath(arg) := data];
      && (port.parse(data).None? ==> r == Outcome(fs.(files := saved), Some(ParseFailed)))
      && (port.parse(data).Some? && flag && status.StatusUnavailable? ==>
            r == Outcome(fs.(files := saved), Some(StatusFailed)))
      && (port.parse(data).Some? && !(flag && status.StatusUnavailable?) && !Rewrites(port.parse(data).value, flag, status) ==>
            r == Outcome(fs.(files := saved), None))
      && (port.parse(data).Some? && Rewrites(port.parse(data).value, flag, status) && GoModPath(arg) !in fs.readOnly ==>
            r == Outcome(fs.(files := saved[GoModPath(arg) := port.format(Stripped(port.parse(data).value))]), None))
      && (port.parse(data).Some? && Rewrites(port.parse(data).value, flag, status) && GoModPath(arg) in fs.readOnly ==>
            r == Outcome(fs.(files := saved), Some(WriteModFailed)))
  {
  }

  /** After a successful strip the backup blocks every further strip until an undo. */
  lemma StripBlocksStrip(fs: FS, port: ModPort, arg: string, flag: bool, status: StatusQuery,
                         port2: ModPort, flag2: bool, status2: StatusQuery)
    requires RemoveLocalReplacesFromGomod(fs, port, arg, flag, status).err == None
    ensures var once := RemoveLocalReplacesFromGomod(fs, port, arg, flag, status).fs;
      RemoveLocalReplacesFromGomod(once, port2, arg, flag2, status2) == Outcome(once, Some(BackupExists))
  {
  }

  /** Undo on a directory with go.mod and the backup: go.mod becomes the
      backup's bytes and the backup is gone, when both files are writable. */
  lemma UndoRestores(fs: FS, arg: string, flag: bool)
    requires Valid(fs)
    requires GetGoModFilepathAndData(fs, arg).Ok? && BackupPath(arg) in fs.files
    requires GoModPath(arg) !in fs.readOnly && BackupPath(arg) !in fs.readOnly
    ensures UndoRemovingLocalReplacesFromGomod(fs, arg, flag)
      == Outcome(fs.(files := fs.files[GoModPath(arg) := fs.files[BackupPath(arg)]] - {BackupPath(arg)}), None)
  {
  }

  /** Undo takes the staging flag and ignores it. */
  lemma UndoIgnoresFlag(fs: FS, arg: string)
    ensures UndoRemovingLocalReplacesFromGomod(fs, arg, true) == UndoRemovingLocalReplacesFromGomod(fs, arg, false)
  {
  }

  /** Undo twice: the second finds no backup. */
  lemma UndoTwice(fs: FS, arg: string, flag: bool, flag2: bool)
    requires Valid(fs)
    requires UndoRemovingLocalReplacesFromGomod(fs, arg, flag).err == None
    ensures var once := UndoRemovingLocalReplacesFromGomod(fs, arg, flag).fs;
      UndoRemovingLocalReplacesFromGomod(once, arg, flag2) == Outcome(once, Some(BackupDoesNotExist))
  {
  }

  /** Round trip: after any strip that wrote the backup, whether it then failed
      or not and whether or not go.mod was rewritten, undo gives back exactly
      the file system before the strip, provided go.mod is writable. */
  lemma StripThenUndo(fs: FS, port: ModPort, arg: string, flag: bool, status: StatusQuery, undoFlag: bool)
    requires Valid(fs) && GoModPath(arg) !in fs.readOnly
    requires RemoveLocalReplacesFromGomod(fs, port, arg, flag, status).fs != fs
    ensures var stripped := RemoveLocalReplacesFromGomod(fs, port, arg, flag, status).fs;
      UndoRemovingLocalReplacesFromGomod(stripped, arg, undoFlag) == Outcome(fs, None)
  {
  }

  /** The same for a strip that succeeded. */
  lemma StripSucceededThenUndo(fs: FS, port: ModPort, arg: string, flag: bool, status: StatusQuery, undoFlag: bool)
    requires Valid(fs) && GoModPath(arg) !in fs.readOnly
    requires RemoveLocalReplacesFromGomod(fs, port, arg, flag, status).err == None
    ensures var stripped := RemoveLocalReplacesFromGomod(fs, port, arg, flag, status).fs;
      UndoRemovingLocalReplacesFromGomod(stripped, arg, undoFlag) == Outcome(fs, None)
  {
    StripThenUndo(fs, port, arg, flag, status, undoFlag);
  }

  /** Examples of replace/gogit_test.go, and the edge cases of the prefix test. */
  lemma DirectiveExamples()
    ensures IsLocalDirective(Directive("aduu.dev/utils", "", "../aduu-dev-utils", ""))
    ensures !IsLocalDirective(Directive("aduu.dev/utils", "", "aduu.dev/hello/world", ""))
    ensures IsLocalDirective(Directive("a", "v1", "./b", ""))
    ensures !IsLocalDirective(Directive("a", "", "/abs/b", ""))
    ensures !IsLocalDirective(Directive("a", "", ".", ""))
    ensures IsLocalDirective(Directive("a", "", "..b", ""))
    ensures LocalDirectives([Directive("aduu.dev/utils", "", "../aduu-dev-utils", "")])
      == [Directive("aduu.dev/utils", "", "../aduu-dev-utils", "")]
    ensures LocalDirectives([Directive("aduu.dev/utils", "", "aduu.dev/hello/world", "")]) == []
  {
    var local := Directive("aduu.dev/utils", "", "../aduu-dev-utils", "");
    var remote := Directive("aduu.dev/utils", "", "aduu.dev/hello/world", "");
    IsLocalDirectiveIff(local);
    IsLocalDirectiveIff(remote);
    IsLocalDirectiveIff(Directive("a", "v1", "./b", ""));
    IsLocalDirectiveIff(Directive("a", "", "/abs/b", ""));
    IsLocalDirectiveIff(Directive("a", "", ".", ""));
    IsLocalDirectiveIff(Directive("a", "", "..b", ""));
    assert [local][..0] == [];
    assert [remote][..0] == [];
  }

  /** With `LocalDirectivesAppend`, the filter on one directive pins the whole
      function down: it keeps a directive exactly when it is local. */
  lemma LocalDirectivesSingle(d: Directive)
    ensures LocalDirectives([d]) == if IsLocalDirective(d) then [d] else []
  {
    assert [d][..0] == [];
  }
}

=== FILE: results.dfy ===
/** Optional values and error-carrying results, the Dafny counterpart of Go's
    `(value, error)` return pairs. */
module Results {

  datatype Option<+T> = None | Some(value: T)

  /** `Ok(v)` is a call that returned `err == nil`; `Err(e)` one that returned error `e`. */
  datatype Result<+T, +E> = Ok(value: T) | Err(error: E)
}

=== FILE: shell_edit.dfy ===
/** The tagged-line editor of install/add.go: adding, replacing and removing one
    line of a shell script that carries a trailing `# <comment>` tag.

    Content is handled as its lines, the pieces of `Split(content)`; every
    operation splits, edits the lines and joins them again. */
module ShellEdit {
  import opened Results
  import opened Text

  /** The validation and ambiguity errors of the editor. */
  datatype EditError =
    | LineContainsLineSeparators
    | CommentContainsLineSeparators
    | CommentIsEmpty
    | TwoCommentsMatch
    | CommentContainsHash

  // ---------------------------------------------------------------------------
  // The tagged line
  // ---------------------------------------------------------------------------

  /** `combinedLine`: the trimmed line, `" # "`, the trimmed comment, and the
      whole trimmed once more. */
  function CombinedLine(line: string, comment: string): (r: string)
    ensures IsTrimmed(r) && '#' in r
  {
    var mid := Trim(line) + " # " + Trim(comment);
    TrimKeepsInner(mid, |Trim(line)| + 1);
    Trim(mid)
  }

  /** The outer trim of `combinedLine` only matters when the line or the comment
      is blank: an empty line yields `# <comment>`, an empty comment a bare `#`. */
  lemma CombinedLineShape(line: string, comment: string)
    ensures Trim(line) == [] && Trim(comment) == [] ==> CombinedLine(line, comment) == "#"
    ensures Trim(line) == [] && Trim(comment) != [] ==> CombinedLine(line, comment) == "# " + Trim(comment)
    ensures Trim(line) != [] && Trim(comment) == [] ==> CombinedLine(line, comment) == Trim(line) + " #"
    ensures Trim(line) != [] && Trim(comment) != [] ==>
      CombinedLine(line, comment) == Trim(line) + " # " + Trim(comment)
  {
    CombinedShape(Trim(line), Trim(comment));
  }

  /** The combined line is a single line when its parts are. */
  lemma CombinedLineNewlineFree(line: string, comment: string)
    requires '\n' !in line && '\n' !in comment
    ensures '\n' !in CombinedLine(line, comment)
  {
    var l, c := Trim(line), Trim(comment);
    TrimKeepsOut(line, '\n');
    TrimKeepsOut(comment, '\n');
    assert '\n' !in l + " # " + c;
    TrimKeepsOut(l + " # " + c, '\n');
  }

  /** The outer trim of `combinedLine` on already trimmed parts, case by case. */
  lemma CombinedShape(l: string, c: string)
    requires l == [] || !IsSpace(l[0])
    requires c == [] || !IsSpace(c[|c| - 1])
    ensures l == [] && c == [] ==> TrimRight(TrimLeft(l + " # " + c)) == "#"
    ensures l == [] && c != [] ==> TrimRight(TrimLeft(l + " # " + c)) == "# " + c
    ensures l != [] && c == [] ==> TrimRight(TrimLeft(l + " # " + c)) == l + " #"
    ensures l != [] && c != [] ==> TrimRight(TrimLeft(l + " # " + c)) == l + " # " + c
  {
    if l == [] && c == [] {
      BlankLineBlankComment(l, c);
    } else if l == [] {
      BlankLineComment(l, c);
    } else if c == [] {
      LineBlankComment(l, c);
    } else {
      LineComment(l, c);
    }
  }

  lemma BlankLineBlankComment(l: string, c: string)
    requires l == [] && c == []
    ensures TrimRight(TrimLeft(l + " # " + c)) == "#"
  {
    assert l + " # " + c == " # ";
    TrimOfBareHash();
  }

  lemma TrimOfBareHash()
    ensures TrimRight(TrimLeft(" # ")) == "#"
  {
  }

  lemma BlankLineComment(l: string, c: string)
    requires l == [] && c != [] && !IsSpace(c[|c| - 1])
    ensures TrimRight(TrimLeft(l + " # " + c)) == "# " + c
  {
    assert l + " # " + c == [' '] + ("# " + c);
    TrimLeftSpaceHead(' ', "# " + c);
    TrimLeftKeeps("# " + c);
    TrimRightKeepsTail("# ", c);
  }

  lemma LineBlankComment(l: string, c: string)
    requires l != [] && !IsSpace(l[0]) && c == []
    ensures TrimRight(TrimLeft(l + " # " + c)) == l + " #"
  {
    var p := l + " ";
    assert l + " # " + c == p + "# ";
    assert (p + "# ")[0] == l[0];
    TrimLeftKeeps(p + "# ");
    TrimRightHashSpace(p);
    assert p + "#" == l + " #";
  }

  lemma LineComment(l: string, c: string)
    requires l != [] && !IsSpace(l[0]) && c != [] && !IsSpace(c[|c| - 1])
    ensures TrimRight(TrimLeft(l + " # " + c)) == l + " # " + c
  {
    assert (l + " # " + c)[0] == l[0];
    TrimLeftKeeps(l + " # " + c);
    TrimRightKeepsTail(l + " # ", c);
  }

  lemma TrimRightHashSpace(p: string)
    ensures TrimRight(p + "# ") == p + "#"
  {
    var q := p + "#";
    assert p + "# " == q + [' '];
    TrimRightSpaceTail(q, ' ');
    assert q[|q| - 1] == '#';
    TrimRightKeeps(q);
  }

  lemma TrimRightKeepsTail(a: string, c: string)
    requires c != [] && !IsSpace(c[|c| - 1])
    ensures TrimRight(a + c) == a + c
  {
    assert (a + c)[|a + c| - 1] == c[|c| - 1];
    TrimRightKeeps(a + c);
  }

  // ---------------------------------------------------------------------------
  // Matching `# [\s]*<comment>`
  // ---------------------------------------------------------------------------

  /** The characters of Go's regular expression class `\s`: tab, line feed,
      form feed, carriage return and space (not vertical tab). */
  predicate IsRegexSpace(ch: char) {
    ch == ' ' || ch == '\t' || ch == '\n' || ch == '\r' || ch == '\U{C}'
  }

  /** `l` holds `k` regular-expression spaces from position `p` on, followed by `comment`. */
  ghost predicate SpacesThen(l: string, comment: string, p: nat, k: nat) {
    && p + k + |comment| <= |l|
    && (forall j :: p <= j < p + k ==> IsRegexSpace(l[j]))
    && l[p + k..p + k + |comment|] == comment
  }

  /** The regular expression `# [\s]*<comment>` matches `l` at position `at`, its `[\s]*` taking `k` characters. */
  ghost predicate MatchesAt(l: string, comment: string, at: nat, k: nat) {
    at + 2 <= |l| && l[at] == '#' && l[at + 1] == ' ' && SpacesThen(l, comment, at + 2, k)
  }

  /** The regular expression `# [\s]*<comment>`, with `comment` quoted literally,
      matches somewhere in `l`: the matcher is not anchored at either end. */
  ghost predicate Matches(l: string, comment: string) {
    exists at: nat, k: nat :: MatchesAt(l, comment, at, k)
  }

  /** Whether `comment` follows position `p` after zero or more regular-expression spaces. */
  predicate MatchesAfterSpaces(l: string, comment: string, p: nat)
    requires p <= |l|
    decreases |l| - p
  {
    || (p + |comment| <= |l| && l[p..p + |comment|] == comment)
    || (p < |l| && IsRegexSpace(l[p]) && MatchesAfterSpaces(l, comment, p + 1))
  }

  /** Whether the pattern matches at `at` or at any later position. */
  predicate MatchesFrom(l: string, comment: string, at: nat)
    requires at <= |l|
    decreases |l| - at
  {
    || (at + 2 <= |l| && l[at] == '#' && l[at + 1] == ' ' && MatchesAfterSpaces(l, comment, at + 2))
    || (at < |l| && MatchesFrom(l, comment, at + 1))
  }

  /** The matcher `containsComment.MatchString` of `commentLineIndexes`, as a search. */
  predicate LineMatches(l: string, comment: string) {
    MatchesFrom(l, comment, 0)
  }

  lemma {:induction false} AfterSpacesSound(l: string, comment: string, p: nat)
    requires p <= |l|
    requires MatchesAfterSpaces(l, comment, p)
    ensures exists k: nat :: SpacesThen(l, comment, p, k)
    decreases |l| - p
  {
    if p + |comment| <= |l| && l[p..p + |comment|] == comment {
      assert SpacesThen(l, comment, p, 0);
    } else {
      AfterSpacesSound(l, comment, p + 1);
      var k: nat :| SpacesThen(l, comment, p + 1, k);
      assert SpacesThen(l, comment, p, k + 1);
    }
  }

  lemma {:induction false} AfterSpacesComplete(l: string, comment: string, p: nat, k: nat)
    requires p <= |l|
    requires SpacesThen(l, comment, p, k)
    ensures MatchesAfterSpaces(l, comment, p)
    decreases k
  {
    if k > 0 {
      assert SpacesThen(l, comment, p + 1, k - 1);
      AfterSpacesComplete(l, comment, p + 1, k - 1);
    }
  }

  lemma {:induction false} MatchesFromSound(l: string, comment: string, at: nat)
    requires at <= |l|
    requires MatchesFrom(l, comment, at)
    ensures exists a: nat, k: nat :: at <= a && MatchesAt(l, comment, a, k)
    decreases |l| - at
  {
    if at + 2 <= |l| && l[at] == '#' && l[at + 1] == ' ' && MatchesAfterSpaces(l, comment, at + 2) {
      AfterSpacesSound(l, comment, at + 2);
      var k: nat :| SpacesThen(l, comment, at + 2, k);
      assert MatchesAt(l, comment, at, k);
    } else {
      MatchesFromSound(l, comment, at + 1);
    }
  }

  lemma {:induction false} MatchesFromComplete(l: string, comment: string, at: nat, a: nat, k: nat)
    requires at <= a
    requires MatchesAt(l, comment, a, k)
    ensures MatchesFrom(l, comment, at)
    decreases a - at
  {
    if a == at {
      AfterSpacesComplete(l, comment, at + 2, k);
    } else {
      MatchesFromComplete(l, comment, at + 1, a, k);
    }
  }

  /** The search agrees with the pattern, in both directions. */
  lemma LineMatchesIff(l: string, comment: string)
    ensures LineMatches(l, comment) <==> Matches(l, comment)
  {
    if LineMatches(l, comment) {
      MatchesFromSound(l, comment, 0);
    }
    if Matches(l, comment) {
      var a: nat, k: nat :| MatchesAt(l, comment, a, k);
      MatchesFromComplete(l, comment, 0, a, k);
    }
  }

  /** A line shorter than `"# "` never matches; in particular the empty line does not. */
  lemma ShortLineNoMatch(l: string, comment: string)
    requires |l| < 2
    ensures !Matches(l, comment)
    ensures !LineMatches(l, comment)
  {
    LineMatchesIff(l, comment);
  }

  /** For a non-blank comment without surrounding white space, the combined line
      carries its own tag. */
  lemma CombinedLineMatches(line: string, comment: string)
    requires comment != [] && IsTrimmed(comment)
    ensures Matches(CombinedLine(line, comment), comment)
    ensures LineMatches(CombinedLine(line, comment), comment)
  {
    var p := if Trim(line) == [] then "" else Trim(line) + " ";
    CombinedLineTagged(line, comment);
    TagMatches(p, comment);
    LineMatchesIff(CombinedLine(line, comment), comment);
  }

  /** The combined line ends in `# <comment>`. */
  lemma CombinedLineTagged(line: string, comment: string)
    requires comment != [] && IsTrimmed(comment)
    ensures CombinedLine(line, comment) == (if Trim(line) == [] then "" else Trim(line) + " ") + "# " + comment
  {
    var l := Trim(line);
    var r := CombinedLine(line, comment);
    TrimOfTrimmed(comment);
    if l == [] {
      assert r == "# " + comment by {
        CombinedLineShape(line, comment);
      }
      assert "" + "# " + comment == "# " + comment;
    } else {
      assert r == l + " # " + comment by {
        CombinedLineShape(line, comment);
      }
      assert (l + " ") + "# " + comment == l + " # " + comment;
    }
  }

  /** Whatever precedes it, `# <comment>` carries the tag `comment`. */
  lemma TagMatches(p: string, comment: string)
    ensures Matches(p + "# " + comment, comment)
  {
    var r := p + "# " + comment;
    assert r[|p|] == '#' && r[|p| + 1] == ' ';
    assert r[|p| + 2..|p| + 2 + |comment|] == comment;
    assert MatchesAt(r, comment, |p|, 0);
  }

  /** Examples: `# AUTO-GENERATED` carries the tag `AUTO-GEN` (the match is not
      anchored at the end), `# AUTO-GEN` does not carry `AUTO-GENE`, and
      `hi# x` carries `x` (nothing is required before the `#`). */
  lemma MatchExamples()
    ensures Matches("# AUTO-GENERATED", "AUTO-GEN")
    ensures !Matches("# AUTO-GEN", "AUTO-GENE")
    ensures Matches(" hi# x", "x")
    ensures Matches("#  \t x", "x")
    ensures !Matches("#x", "x")
  {
    assert MatchesAt("# AUTO-GENERATED", "AUTO-GEN", 0, 0);
    assert MatchesAt(" hi# x", "x", 3, 0);
    assert MatchesAt("#  \t x", "x", 0, 3);
  }

  // ---------------------------------------------------------------------------
  // commentLineIndexes
  // ---------------------------------------------------------------------------

  /** `commentLineIndexes`: the indexes of the lines the pattern matches, in
      ascending order. (Compiling the quoted pattern cannot fail for a comment
      that is valid UTF-8, which every text of this model is, so the Go error
      result is not modelled.) */
  function CommentLineIndexes(lines: seq<string>, comment: string): (ix: seq<nat>)
    ensures forall n :: 0 <= n < |ix| ==> ix[n] < |lines| && LineMatches(lines[ix[n]], comment)
    ensures forall i :: 0 <= i < |lines| && LineMatches(lines[i], comment) ==> i in ix
    ensures forall m, n :: 0 <= m < n < |ix| ==> ix[m] < ix[n]
    decreases |lines|
  {
    if |lines| == 0 then []
    else
      var last := |lines| - 1;
      var ix := CommentLineIndexes(lines[..last], comment);
      if LineMatches(lines[last], comment) then ix + [last] else ix
  }

  /** No line carries the tag. */
  ghost predicate NoMatch(lines: seq<string>, comment: string) {
    forall i :: 0 <= i < |lines| ==> !LineMatches(lines[i], comment)
  }

  /** `i` is the first line the pattern matches. */
  ghost predicate FirstMatch(lines: seq<string>, comment: string, i: int) {
    && 0 <= i < |lines|
    && LineMatches(lines[i], comment)
    && forall j :: 0 <= j < i ==> !LineMatches(lines[j], comment)
  }

  /** `i` is the only line the pattern matches. */
  ghost predicate OnlyMatch(lines: seq<string>, comment: string, i: int) {
    && 0 <= i < |lines|
    && LineMatches(lines[i], comment)
    && forall j :: 0 <= j < |lines| && j != i ==> !LineMatches(lines[j], comment)
  }

  /** The head of the index list is the first matching line. */
  lemma FirstIndexIsFirstMatch(lines: seq<string>, comment: string, i: int)
    requires FirstMatch(lines, comment, i)
    ensures var ix := CommentLineIndexes(lines, comment); |ix| > 0 && ix[0] == i
  {
    var ix := CommentLineIndexes(lines, comment);
    assert i in ix;
    assert LineMatches(lines[ix[0]], comment);
  }

  /** A single index means a single matching line. */
  lemma SingleIndexIsOnlyMatch(lines: seq<string>, comment: string)
    requires |CommentLineIndexes(lines, comment)| == 1
    ensures OnlyMatch(lines, comment, CommentLineIndexes(lines, comment)[0])
  {
    var ix := CommentLineIndexes(lines, comment);
    forall j | 0 <= j < |lines| && j != ix[0]
      ensures !LineMatches(lines[j], comment)
    {
    }
  }

  /** Two or more indexes mean two distinct matching lines. */
  lemma ManyIndexesAreTwoMatches(lines: seq<string>, comment: string)
    requires |CommentLineIndexes(lines, comment)| > 1
    ensures var ix := CommentLineIndexes(lines, comment);
      ix[0] < ix[1] < |lines| && LineMatches(lines[ix[0]], comment) && LineMatches(lines[ix[1]], comment)
  {
  }

  // ---------------------------------------------------------------------------
  // fixLineSeparators
  // ---------------------------------------------------------------------------

  /** The lines without their trailing zero-length lines; a line of spaces is
      not zero-length and stays. Also the backward loop of `removeFromShellFile`. */
  function TrimTrailingEmpty(lines: seq<string>): (r: seq<string>)
    ensures |r| <= |lines| && r == lines[..|r|]
    ensures r == [] || r[|r| - 1] != []
    ensures forall i :: |r| <= i < |lines| ==> lines[i] == []
    decreases |lines|
  {
    if |lines| > 0 && lines[|lines| - 1] == [] then TrimTrailingEmpty(lines[..|lines| - 1]) else lines
  }

  /** `fixLineSeparators`, one call per turn of its `for` loop: looks at the
      last line and the two before it and either stops, inserts one empty
      line before the last line, or drops the empty line right before it and
      goes round again. Go indexes before the start on an empty slice; every
      caller passes at least the appended line. */
  function FixLineSeparators(lines: seq<string>): (out: seq<string>)
    requires |lines| >= 1
    ensures 1 <= |out| <= |lines| + 1 && out[|out| - 1] == lines[|lines| - 1]
    decreases |lines|
  {
    var last := |lines| - 1;
    if last == 0 then lines
    else if last == 1 then
      if |lines[0]| == 0 then lines[1..] else [lines[0], "", lines[1]]
    else if |lines[last - 1]| != 0 then lines[..last] + ["", lines[last]]
    else if |lines[last - 2]| != 0 then lines
    else FixLineSeparators(lines[..last - 1] + [lines[last]])
  }

  /** The shape `fixLineSeparators` leaves behind when `x` is appended to `prior`:
      `x` alone when `prior` holds only zero-length lines, otherwise the
      non-empty part of `prior`, exactly one empty line, then `x`. */
  function SeparatedAppend(prior: seq<string>, x: string): seq<string> {
    var q := TrimTrailingEmpty(prior);
    if q == [] then [x] else q + ["", x]
  }

  /** Closed form of the normalisation loop. */
  lemma {:induction false} FixLineSeparatorsClosedForm(prior: seq<string>, x: string)
    ensures FixLineSeparators(prior + [x]) == SeparatedAppend(prior, x)
    decreases |prior|
  {
    var lines := prior + [x];
    var n := |prior|;
    if n == 0 {
    } else if n == 1 {
      if |prior[0]| == 0 {
        assert TrimTrailingEmpty(prior) == TrimTrailingEmpty(prior[..0]);
      }
    } else if |prior[n - 1]| != 0 {
      assert lines[..n] == prior;
    } else if |prior[n - 2]| != 0 {
      assert TrimTrailingEmpty(prior) == TrimTrailingEmpty(prior[..n - 1]);
      assert TrimTrailingEmpty(prior[..n - 1]) == prior[..n - 1];
      assert lines == prior[..n - 1] + ["", x];
    } else {
      var shorter := prior[..n - 1];
      assert lines[..n - 1] + [lines[n]] == shorter + [x];
      assert TrimTrailingEmpty(prior) == TrimTrailingEmpty(shorter);
      FixLineSeparatorsClosedForm(shorter, x);
    }
  }

  // ---------------------------------------------------------------------------
  // addToShellFile
  // ---------------------------------------------------------------------------

  /** The checks of `addToShellFile`, in the order it makes them; the first
      failing one decides the error. */
  function Validate(line: string, comment: string): (r: Option<EditError>)
    ensures r == None <==> comment != [] && '\n' !in comment && '\n' !in line && '#' !in comment
    ensures comment == [] ==> r == Some(CommentIsEmpty)
    ensures comment != [] && '\n' in comment ==> r == Some(CommentContainsLineSeparators)
    ensures comment != [] && '\n' !in comment && '\n' in line ==> r == Some(LineContainsLineSeparators)
    ensures comment != [] && '\n' !in comment && '\n' !in line && '#' in comment ==> r == Some(CommentContainsHash)
  {
    if |comment| == 0 then Some(CommentIsEmpty)
    else if '\n' in comment then Some(CommentContainsLineSeparators)
    else if '\n' in line then Some(LineContainsLineSeparators)
    else if '#' in comment then Some(CommentContainsHash)
    else None
  }

  /** The line-level edit of `addToShellFile`: overwrite the first tagged line,
      or append the combined line and normalise the blank lines before it. */
  function AddToLines(lines: seq<string>, line: string, comment: string): (r: seq<string>)
    ensures forall i :: FirstMatch(lines, comment, i) ==>
      && |r| == |lines|
      && r[i] == CombinedLine(line, comment)
      && forall j :: 0 <= j < |lines| && j != i ==> r[j] == lines[j]
    ensures NoMatch(lines, comment) ==> r == SeparatedAppend(lines, CombinedLine(line, comment))
  {
    var x := CombinedLine(line, comment);
    var ix := CommentLineIndexes(lines, comment);
    if |ix| == 0 then
      FixLineSeparatorsClosedForm(lines, x);
      FixLineSeparators(lines + [x])
    else
      assert forall i :: FirstMatch(lines, comment, i) ==> i == ix[0] by {
        forall i | FirstMatch(lines, comment, i) ensures i == ix[0] {
          FirstIndexIsFirstMatch(lines, comment, i);
        }
      }
      assert LineMatches(lines[ix[0]], comment);
      lines[ix[0] := x]
  }

  /** `addToShellFile`. */
  function AddToShellFile(content: string, line: string, comment: string): (r: Result<string, EditError>)
    ensures Validate(line, comment).Some? ==> r == Err(Validate(line, comment).value)
    ensures Validate(line, comment).None? ==> r.Ok? && Split(r.value) == AddToLines(Split(content), line, comment)
  {
    var lines := Split(content);
    match Validate(line, comment)
    case Some(e) => Err(e)
    case None =>
      var out := AddToLines(lines, line, comment);
      AddToLinesNewlineFree(lines, line, comment);
      SplitJoin(out);
      Ok(Join(out))
  }

  /** The edited lines stay newline free and non-empty. */
  lemma AddToLinesNewlineFree(lines: seq<string>, line: string, comment: string)
    requires '\n' !in line && '\n' !in comment
    requires forall i :: 0 <= i < |lines| ==> '\n' !in lines[i]
    ensures var r := AddToLines(lines, line, comment);
      |r| >= 1 && forall i :: 0 <= i < |r| ==> '\n' !in r[i]
  {
    var x := CombinedLine(line, comment);
    var ix := CommentLineIndexes(lines, comment);
    CombinedLineNewlineFree(line, comment);
    if |ix| == 0 {
      FixLineSeparatorsClosedForm(lines, x);
      var q := TrimTrailingEmpty(lines);
      assert forall i :: 0 <= i < |q| ==> q[i] == lines[i];
    }
  }

  // ---------------------------------------------------------------------------
  // removeFromShellFile
  // ---------------------------------------------------------------------------

  /** `removeFromShellFile`: nothing to do without a tagged line, an error for
      two or more, otherwise the tagged line goes and so do the zero-length
      lines that end up at the end. */
  function RemoveFromShellFile(content: string, comment: string): (r: Result<string, EditError>)
    ensures NoMatch(Split(content), comment) ==> r == Ok(content)
    ensures var lines := Split(content);
      (exists i, j :: 0 <= i < j < |lines| && LineMatches(lines[i], comment) && LineMatches(lines[j], comment)) ==>
        r == Err(TwoCommentsMatch)
    ensures var lines := Split(content);
      forall i :: OnlyMatch(lines, comment, i) ==> r == Ok(Join(TrimTrailingEmpty(lines[..i] + lines[i + 1..])))
  {
    var lines := Split(content);
    var ix := CommentLineIndexes(lines, comment);
    if |ix| == 0 then Ok(content)
    else if |ix| != 1 then
      ManyIndexesAreTwoMatches(lines, comment);
      assert !NoMatch(lines, comment);
      Err(TwoCommentsMatch)
    else
      SingleIndexIsOnlyMatch(lines, comment);
      var i := ix[0];
      Ok(Join(TrimTrailingEmpty(lines[..i] + lines[i + 1..])))
  }
}

=== FILE: shell_edit_examples.dfy ===
/** The cases of install/add_test.go, stated over the model of install/add.go. */
module ShellEditExamples {
  import opened Results
  import opened Text
  import opened ShellEdit
  import opened ShellEditProperties

  /** The first case of `install/add_test.go`: a line and a tag appended after
      one untagged line, behind an empty line. */
  lemma AddExample()
    ensures AddToShellFile("hello", "my cmd", "AUTO-GEN") == Ok("hello\n\nmy cmd # AUTO-GEN")
  {
    AddAfterSingleLine("hello", "my cmd", "AUTO-GEN");
    CombinedLineExample();
    ExampleTexts();
  }

  /** The same with an empty line: only the tag is appended. */
  lemma AddEmptyLineExample()
    ensures AddToShellFile("hello", "", "AUTO-GEN") == Ok("hello\n\n# AUTO-GEN")
  {
    AddAfterSingleLine("hello", "", "AUTO-GEN");
    CombinedEmptyLineExample();
    ExampleTexts();
  }

  /** The literal texts of the appending cases, glued from their lines. */
  lemma ExampleTexts()
    ensures "hello" + "\n\n" + "my cmd # AUTO-GEN" == "hello\n\nmy cmd # AUTO-GEN"
    ensures "hello" + "\n\n" + "# AUTO-GEN" == "hello\n\n# AUTO-GEN"
  {
  }

  lemma TagTexts()
    ensures "" + "# " + "AUTO-GEN" == "# AUTO-GEN"
    ensures "  " + "# " + "AUTO-GEN" == "  # AUTO-GEN"
  {
  }

  /** The literal texts of the replacing cases. */
  lemma ReplaceTexts()
    ensures "\n" + "# AUTO-GEN" + "\n" == "\n# AUTO-GEN\n"
    ensures "\n" + "  # AUTO-GEN" + "\n" == "\n  # AUTO-GEN\n"
    ensures "\n" + "# AUTO-GENERATED" + "\n" == "\n# AUTO-GENERATED\n"
    ensures "\n" + "my cmd # AUTO-GEN" + "\n" == "\nmy cmd # AUTO-GEN\n"
  {
  }

  /** The literal texts of the removal cases. */
  lemma RemoveTexts()
    ensures "" + "\n" + "# AUTO-GEN" + "\n" + "# AUTO-GENERATED" == "\n# AUTO-GEN\n# AUTO-GENERATED"
    ensures "abc" + "\n" + "# AUTO-GEN" == "abc\n# AUTO-GEN"
  {
  }

  /** Validation examples of `install/add_test.go`, with the test's own inputs. */
  lemma AddErrorExamples()
    ensures AddToShellFile("", "", "") == Err(CommentIsEmpty)
    ensures AddToShellFile("", "", "# abc") == Err(CommentContainsHash)
  {
  }

  /** A line break in the line is refused once the comment is known to have none. */
  lemma AddLineBreakInLine()
    ensures AddToShellFile("\n# AUTO-GENERATED by gogit", "\n", "AUTO-GENERATED by gogit") == Err(LineContainsLineSeparators)
  {
    assert '\n' !in "AUTO-GENERATED by gogit";
  }

  /** A line break in the comment is refused before the line is looked at. */
  lemma AddLineBreakInComment()
    ensures AddToShellFile("\n# AUTO-GENERATED by gogit", "", "\nAUTO-GENERATED by gogit") == Err(CommentContainsLineSeparators)
  {
    assert "\nAUTO-GENERATED by gogit"[0] == '\n';
  }

  /** A command and a tag are joined by ` # `. */
  lemma CombinedLineExample()
    ensures CombinedLine("my cmd", "AUTO-GEN") == "my cmd # AUTO-GEN"
  {
    TrimOfTrimmed("my cmd");
    TrimOfTrimmed("AUTO-GEN");
    CombinedLineShape("my cmd", "AUTO-GEN");
  }

  /** Without a command only the tag is left. */
  lemma CombinedEmptyLineExample()
    ensures CombinedLine("", "AUTO-GEN") == "# AUTO-GEN"
  {
    TrimOfTrimmed("AUTO-GEN");
    CombinedLineShape("", "AUTO-GEN");
  }

  /** A tagged line between two empty lines is replaced by the combined line. */
  lemma ReplaceBetweenEmpty(t: string, line: string, comment: string)
    requires Validate(line, comment).None? && '\n' !in t && LineMatches(t, comment)
    ensures AddToShellFile("\n" + t + "\n", line, comment) == Ok("\n" + CombinedLine(line, comment) + "\n")
  {
    ShortLineNoMatch("", comment);
    AddReplacesMiddle("", t, "", line, comment);
    assert "" + "\n" + t + "\n" + "" == "\n" + t + "\n";
    assert "" + "\n" + CombinedLine(line, comment) + "\n" + "" == "\n" + CombinedLine(line, comment) + "\n";
  }

  lemma TaggedLonger()
    ensures LineMatches("# AUTO-GENERATED", "AUTO-GEN")
  {
    MatchExamples();
    LineMatchesIff("# AUTO-GENERATED", "AUTO-GEN");
  }

  lemma UntaggedLonger()
    ensures !LineMatches("# AUTO-GEN", "AUTO-GENE")
  {
    MatchExamples();
    LineMatchesIff("# AUTO-GEN", "AUTO-GENE");
  }

  /** `# ` and the tag, after anything, is a tagged line. */
  lemma TagLineMatches(p: string, comment: string)
    ensures LineMatches(p + "# " + comment, comment)
  {
    TagMatches(p, comment);
    LineMatchesIff(p + "# " + comment, comment);
  }

  /** An existing line that only starts with the tag is replaced. */
  lemma ReplaceLonger()
    ensures AddToShellFile("\n# AUTO-GENERATED\n", "", "AUTO-GEN") == Ok("\n# AUTO-GEN\n")
  {
    ReplaceTexts();
    CombinedEmptyLineExample();
    TaggedLonger();
    ReplaceBetweenEmpty("# AUTO-GENERATED", "", "AUTO-GEN");
  }

  /** An indented tagged line loses its spaces. */
  lemma ReplaceIndented()
    ensures AddToShellFile("\n  # AUTO-GEN\n", "", "AUTO-GEN") == Ok("\n# AUTO-GEN\n")
  {
    ReplaceTexts();
    TagTexts();
    CombinedEmptyLineExample();
    TagLineMatches("  ", "AUTO-GEN");
    ReplaceBetweenEmpty("  # AUTO-GEN", "", "AUTO-GEN");
  }

  /** The same with a command in front of the tag. */
  lemma ReplaceIndentedWithCommand()
    ensures AddToShellFile("\n  # AUTO-GEN\n", "my cmd", "AUTO-GEN") == Ok("\nmy cmd # AUTO-GEN\n")
  {
    ReplaceTexts();
    TagTexts();
    CombinedLineExample();
    TagLineMatches("  ", "AUTO-GEN");
    ReplaceBetweenEmpty("  # AUTO-GEN", "my cmd", "AUTO-GEN");
  }

  /** An exactly tagged line gets the command in front of the tag. */
  lemma ReplaceExact()
    ensures AddToShellFile("\n# AUTO-GEN\n", "my cmd", "AUTO-GEN") == Ok("\nmy cmd # AUTO-GEN\n")
  {
    ReplaceTexts();
    TagTexts();
    CombinedLineExample();
    TagLineMatches("", "AUTO-GEN");
    ReplaceBetweenEmpty("# AUTO-GEN", "my cmd", "AUTO-GEN");
  }

  /** Two tagged lines, one exact and one longer, are refused. */
  lemma RemoveTwoTagged()
    ensures RemoveFromShellFile("\n# AUTO-GEN\n# AUTO-GENERATED", "AUTO-GEN") == Err(TwoCommentsMatch)
  {
    RemoveTexts();
    TagTexts();
    SplitThree("", "# AUTO-GEN", "# AUTO-GENERATED");
    TagLineMatches("", "AUTO-GEN");
    TaggedLonger();
    var lines := Split("\n# AUTO-GEN\n# AUTO-GENERATED");
    assert LineMatches(lines[1], "AUTO-GEN") && LineMatches(lines[2], "AUTO-GEN");
  }

  /** The single tagged line goes. */
  lemma RemoveSingleTagged()
    ensures RemoveFromShellFile("abc\n# AUTO-GEN", "AUTO-GEN") == Ok("abc")
  {
    RemoveTexts();
    TagTexts();
    TagLineMatches("", "AUTO-GEN");
    NoHashNoMatch("abc", "AUTO-GEN", 0);
    RemoveTaggedLast("abc", "# AUTO-GEN", "AUTO-GEN");
  }

  /** A longer tag than the one in the text removes nothing. The texts are
      parameters: on literal arguments the verifier evaluates the whole removal
      eagerly. */
  lemma RemoveWrongTag(content: string, comment: string)
    requires content == "abc\n# AUTO-GEN" && comment == "AUTO-GENE"
    ensures RemoveFromShellFile(content, comment) == Ok(content)
  {
    RemoveTexts();
    SplitTwo("abc", "# AUTO-GEN");
    NoHashNoMatch("abc", comment, 0);
    UntaggedLonger();
    assert NoMatch(Split(content), comment);
  }
}

=== FILE: shell_edit_findings.dfy ===
/** A comment with white space around it: `combinedLine` trims it, but the
    tag pattern of install/add.go quotes it untrimmed, so the line that
    `addToShellFile` writes does not carry its own tag. */
module ShellEditFindings {
  import opened Results
  import opened Text
  import opened ShellEdit
  import opened ShellEditProperties

  /** The pattern needs `# `, then the whole comment: a shorter line never matches. */
  lemma ShortForCommentNoMatch(l: string, comment: string)
    requires |l| < 2 + |comment|
    ensures !LineMatches(l, comment)
  {
    forall at: nat, k: nat ensures !MatchesAt(l, comment, at, k) {
    }
    LineMatchesIff(l, comment);
  }

  /** As written: with a blank line and a comment that has white space around
      it, the combined line is `# ` and the trimmed comment, which is too short
      to match the untrimmed comment. */
  lemma UntrimmedCommentUntagged(line: string, comment: string)
    requires Trim(line) == [] && Trim(comment) != []
    requires !IsTrimmed(comment)
    ensures !LineMatches(CombinedLine(line, comment), comment)
  {
    CombinedLineShape(line, comment);
    TrimCutsSpace(comment);
    assert Trim(comment) != comment;
    ShortForCommentNoMatch(CombinedLine(line, comment), comment);
  }

  /** As written, on the comment " X": adding to an empty script writes `# X`, */
  lemma UntrimmedAddOnce()
    ensures AddToShellFile("", "", " X") == Ok("# X")
  {
    UntrimmedCombined();
    ShortLineNoMatch("", " X");
    assert Split("") == [""];
    assert NoMatch([""], " X");
    assert TrimTrailingEmpty([""]) == [];
    AddWhenUntagged("", "", " X");
    assert Join(["# X"]) == "# X";
  }

  /** adding again appends a second `# X` behind an empty line, */
  lemma UntrimmedAddAgain()
    ensures AddToShellFile("# X", "", " X") == Ok("# X\n\n# X")
  {
    UntrimmedCombined();
    ShortForCommentNoMatch("# X", " X");
    AddAfterUntaggedLine("# X", "", " X");
    UntrimmedTexts();
  }

  lemma UntrimmedTexts()
    ensures "# X" + "\n\n" + "# X" == "# X\n\n# X"
  {
  }

  /** and removing leaves `# X` in place. */
  lemma UntrimmedRemoveKeeps()
    ensures RemoveFromShellFile("# X", " X") == Ok("# X")
  {
    UntrimmedNoMatch();
  }

  lemma UntrimmedNoMatch()
    ensures NoMatch(Split("# X"), " X")
  {
    ShortForCommentNoMatch("# X", " X");
    SplitSingle("# X");
  }

  lemma UntrimmedCombined()
    ensures CombinedLine("", " X") == "# X"
  {
    assert TrimLeft(" X") == TrimLeft("X") == "X";
    CombinedLineShape("", " X");
    assert "# " + "X" == "# X";
  }

  /** Corrected: the comment is trimmed once, and that trimmed text is both
      written and searched for. */
  function AddToShellFileTrimmed(content: string, line: string, comment: string): (r: Result<string, EditError>)
    ensures IsTrimmed(comment) ==> r == AddToShellFile(content, line, comment)
    ensures r.Ok? ==> exists i :: 0 <= i < |Split(r.value)| && LineMatches(Split(r.value)[i], Trim(comment))
  {
    var c := Trim(comment);
    TrimOfTrimmedIf(comment);
    var r := AddToShellFile(content, line, c);
    if r.Ok? then
      AddedLineTagged(content, line, c);
      r
    else r
  }

  /** Corrected removal: the trimmed comment is searched for. */
  function RemoveFromShellFileTrimmed(content: string, comment: string): (r: Result<string, EditError>)
    ensures IsTrimmed(comment) ==> r == RemoveFromShellFile(content, comment)
    ensures NoMatch(Split(content), Trim(comment)) ==> r == Ok(content)
  {
    TrimOfTrimmedIf(comment);
    RemoveFromShellFile(content, Trim(comment))
  }

  lemma TrimOfTrimmedIf(s: string)
    ensures IsTrimmed(s) ==> Trim(s) == s
  {
    if IsTrimmed(s) {
      TrimOfTrimmed(s);
    }
  }

  /** After a successful add some line carries the tag, for a trimmed comment. */
  lemma AddedLineTagged(content: string, line: string, comment: string)
    requires IsTrimmed(comment) && AddToShellFile(content, line, comment).Ok?
    ensures var lines := Split(AddToShellFile(content, line, comment).value);
      exists i :: 0 <= i < |lines| && LineMatches(lines[i], comment)
  {
    var lines := Split(content);
    var out := AddToLines(lines, line, comment);
    var x := CombinedLine(line, comment);
    CombinedLineMatches(line, comment);
    LineMatchesIff(x, comment);
    assert Split(AddToShellFile(content, line, comment).value) == out;
    if NoMatch(lines, comment) {
      var last := |out| - 1;
      assert out[last] == x && LineMatches(out[last], comment);
    } else {
      var j :| 0 <= j < |lines| && LineMatches(lines[j], comment);
      FirstMatchExists(lines, comment, j);
      var i :| FirstMatch(lines, comment, i);
      assert out[i] == x && LineMatches(out[i], comment);
    }
  }

  /** The corrected edits are the edits of the code on the trimmed comment. */
  lemma TrimmedEdits(content: string, line: string, comment: string)
    ensures AddToShellFileTrimmed(content, line, comment) == AddToShellFile(content, line, Trim(comment))
    ensures RemoveFromShellFileTrimmed(content, comment) == RemoveFromShellFile(content, Trim(comment))
  {
  }

  /** Corrected: adding twice is adding once, for every comment. */
  lemma AddTrimmedIdempotent(content: string, line: string, comment: string)
    requires AddToShellFileTrimmed(content, line, comment).Ok?
    ensures var once := AddToShellFileTrimmed(content, line, comment).value;
      AddToShellFileTrimmed(once, line, comment) == Ok(once)
  {
    AddToShellFileIdempotent(content, line, Trim(comment));
  }

  /** Corrected: removing undoes adding, for every comment. */
  lemma AddTrimmedThenRemove(content: string, line: string, comment: string)
    requires Validate(line, Trim(comment)).None?
    requires NoMatch(Split(content), Trim(comment))
    requires content == [] || content[|content| - 1] != '\n'
    ensures AddToShellFileTrimmed(content, line, comment).Ok?
    ensures RemoveFromShellFileTrimmed(AddToShellFileTrimmed(content, line, comment).value, comment) == Ok(content)
  {
    var c := Trim(comment);
    AddThenRemoveRestores(content, line, c);
    TrimmedEdits(content, line, comment);
    TrimmedEdits(AddToShellFile(content, line, c).value, line, comment);
  }
}

=== FILE: shell_edit_properties.dfy ===
/** Properties relating the edits of install/add.go: adding twice is adding
    once, and removing what was added restores the content. */
module ShellEditProperties {
  import opened Results
  import opened Text
  import opened ShellEdit

  /** The line-level edit is idempotent for a comment without surrounding white space. */
  lemma AddToLinesIdempotent(lines: seq<string>, line: string, comment: string)
    requires comment != [] && IsTrimmed(comment)
    ensures var once := AddToLines(lines, line, comment);
      AddToLines(once, line, comment) == once
  {
    if i :| FirstMatch(lines, comment, i) {
      ReplacedStaysFirst(lines, line, comment, i);
    } else {
      forall i | 0 <= i < |lines| ensures !LineMatches(lines[i], comment) {
        if LineMatches(lines[i], comment) {
          FirstMatchExists(lines, comment, i);
        }
      }
      AppendedStaysLast(lines, line, comment);
    }
  }

  /** Overwriting the first tagged line keeps it the first tagged line, so a
      second add writes the same line over it. */
  lemma ReplacedStaysFirst(lines: seq<string>, line: string, comment: string, i: int)
    requires comment != [] && IsTrimmed(comment) && FirstMatch(lines, comment, i)
    ensures var once := AddToLines(lines, line, comment);
      AddToLines(once, line, comment) == once
  {
    var x := CombinedLine(line, comment);
    var once := AddToLines(lines, line, comment);
    CombinedLineMatches(line, comment);
    assert FirstMatch(once, comment, i) && once[i] == x;
    AddOverFirst(once, line, comment, i);
  }

  /** The appended line is the first tagged one, so a second add writes the
      same line over it. */
  lemma AppendedStaysLast(lines: seq<string>, line: string, comment: string)
    requires comment != [] && IsTrimmed(comment) && NoMatch(lines, comment)
    ensures var once := AddToLines(lines, line, comment);
      AddToLines(once, line, comment) == once
  {
    var x := CombinedLine(line, comment);
    CombinedLineMatches(line, comment);
    var once := SeparatedAppend(lines, x);
    assert AddToLines(lines, line, comment) == once;
    AppendedIsFirstMatch(lines, x, comment);
    AddOverFirst(once, line, comment, |once| - 1);
  }

  /** Adding over lines whose first tagged line already is the combined line
      changes nothing. */
  lemma AddOverFirst(lines: seq<string>, line: string, comment: string, i: int)
    requires FirstMatch(lines, comment, i) && lines[i] == CombinedLine(line, comment)
    ensures AddToLines(lines, line, comment) == lines
  {
    var r := AddToLines(lines, line, comment);
    assert |r| == |lines| && forall j :: 0 <= j < |lines| ==> r[j] == lines[j];
  }

  /** Appended to untagged lines, a tagged line is the first tagged one. */
  lemma AppendedIsFirstMatch(lines: seq<string>, x: string, comment: string)
    requires NoMatch(lines, comment) && LineMatches(x, comment)
    ensures var out := SeparatedAppend(lines, x);
      out[|out| - 1] == x && FirstMatch(out, comment, |out| - 1)
  {
    var q := TrimTrailingEmpty(lines);
    var out := SeparatedAppend(lines, x);
    var last := |out| - 1;
    forall j | 0 <= j < last ensures !LineMatches(out[j], comment) {
      if j < |q| {
        assert out[j] == lines[j];
      } else {
        assert out[j] == [];
        ShortLineNoMatch(out[j], comment);
      }
    }
  }

  /** Some line matches, so a first one does. */
  lemma {:induction false} FirstMatchExists(lines: seq<string>, comment: string, i: int)
    requires 0 <= i < |lines| && LineMatches(lines[i], comment)
    ensures exists f :: FirstMatch(lines, comment, f)
    decreases i
  {
    if !FirstMatch(lines, comment, i) {
      var j :| 0 <= j < i && LineMatches(lines[j], comment);
      FirstMatchExists(lines, comment, j);
    }
  }

  /** Adding the same line with the same comment a second time changes nothing. */
  lemma AddToShellFileIdempotent(content: string, line: string, comment: string)
    requires AddToShellFile(content, line, comment).Ok?
    requires IsTrimmed(comment)
    ensures var once := AddToShellFile(content, line, comment).value;
      AddToShellFile(once, line, comment) == Ok(once)
  {
    var once := AddToShellFile(content, line, comment).value;
    var lines := AddToLines(Split(content), line, comment);
    AddToLinesIdempotent(Split(content), line, comment);
    AddToLinesNewlineFree(lines, line, comment);
    SplitJoin(AddToLines(lines, line, comment));
    JoinSplit(once);
  }

  /** Appending a tagged line to untagged lines makes it the only tagged line,
      and dropping it again leaves the untagged lines without trailing empty ones. */
  lemma SeparatedAppendRemove(lines: seq<string>, x: string, comment: string)
    requires NoMatch(lines, comment) && LineMatches(x, comment)
    ensures var out := SeparatedAppend(lines, x);
      && OnlyMatch(out, comment, |out| - 1)
      && out[..|out| - 1] == TrimTrailingEmpty(lines) + (if TrimTrailingEmpty(lines) == [] then [] else [""])
  {
    var q := TrimTrailingEmpty(lines);
    var out := SeparatedAppend(lines, x);
    if q != [] {
      assert out == q + ["", x];
      forall j | 0 <= j < |out| - 1 ensures !LineMatches(out[j], comment) {
        if j == |q| {
          ShortLineNoMatch(out[j], comment);
        } else {
          assert out[j] == lines[j];
        }
      }
      assert out[..|out| - 1] == q + [""];
    }
  }

  /** Zero-length lines at the end make no difference to `TrimTrailingEmpty`. */
  lemma TrimTrailingEmptyOfTrimmed(lines: seq<string>)
    ensures TrimTrailingEmpty(TrimTrailingEmpty(lines) + [""]) == TrimTrailingEmpty(lines)
  {
    var q := TrimTrailingEmpty(lines);
    assert (q + [""])[..|q|] == q;
  }

  /** Removing the tag after adding it to content that lacked it gives back the
      content without its trailing line breaks. */
  lemma AddThenRemove(content: string, line: string, comment: string)
    requires Validate(line, comment).None? && IsTrimmed(comment)
    requires NoMatch(Split(content), comment)
    ensures AddToShellFile(content, line, comment).Ok?
    ensures RemoveFromShellFile(AddToShellFile(content, line, comment).value, comment)
      == Ok(Join(TrimTrailingEmpty(Split(content))))
  {
    var lines := Split(content);
    var x := CombinedLine(line, comment);
    var out := SeparatedAppend(lines, x);
    var q := TrimTrailingEmpty(lines);
    AddWhenUntagged(content, line, comment);
    assert OnlyMatch(out, comment, |out| - 1) && out[..|out| - 1] + out[|out|..] == q + (if q == [] then [] else [""]) by {
      CombinedLineMatches(line, comment);
      SeparatedAppendRemove(lines, x, comment);
    }
    RemoveOnlyMatch(Join(out), comment, |out| - 1);
    TrimTrailingEmptyOfTrimmed(lines);
  }

  /** So content that is empty or does not end in a line break comes back unchanged. */
  lemma AddThenRemoveRestores(content: string, line: string, comment: string)
    requires Validate(line, comment).None? && IsTrimmed(comment)
    requires NoMatch(Split(content), comment)
    requires content == [] || content[|content| - 1] != '\n'
    ensures AddToShellFile(content, line, comment).Ok?
    ensures RemoveFromShellFile(AddToShellFile(content, line, comment).value, comment) == Ok(content)
  {
    JoinTrimmedSplit(content);
    AddThenRemove(content, line, comment);
  }

  /** Splitting and joining without the trailing empty lines keeps content that
      does not end in a line break. */
  lemma JoinTrimmedSplit(content: string)
    requires content == [] || content[|content| - 1] != '\n'
    ensures Join(TrimTrailingEmpty(Split(content))) == content
  {
    var lines := Split(content);
    SplitLastEmpty(content);
    if content == [] {
      assert lines == [[]];
      assert TrimTrailingEmpty(lines) == TrimTrailingEmpty([]);
    } else {
      assert TrimTrailingEmpty(lines) == lines;
      JoinSplit(content);
    }
  }

  /** On untagged content, adding appends the combined line after one separating empty line. */
  lemma AddWhenUntagged(content: string, line: string, comment: string)
    requires Validate(line, comment).None?
    requires NoMatch(Split(content), comment)
    ensures var out := SeparatedAppend(Split(content), CombinedLine(line, comment));
      AddToShellFile(content, line, comment) == Ok(Join(out)) && Split(Join(out)) == out
  {
    var out := AddToLines(Split(content), line, comment);
    AddToLinesNewlineFree(Split(content), line, comment);
    SplitJoin(out);
  }

  /** The third case of `RemoveFromShellFile`, for one given line. */
  lemma RemoveOnlyMatch(content: string, comment: string, i: int)
    requires OnlyMatch(Split(content), comment, i)
    ensures var lines := Split(content);
      RemoveFromShellFile(content, comment) == Ok(Join(TrimTrailingEmpty(lines[..i] + lines[i + 1..])))
  {
  }

  /** A text without line breaks is a single line. */
  lemma SplitSingle(s: string)
    requires '\n' !in s
    ensures Split(s) == [s]
  {
    SplitPrepend(s, []);
    assert s + [] == s;
  }

  /** A one-line script without a tag gets an empty line and then the combined line. */
  lemma AddAfterSingleLine(content: string, line: string, comment: string)
    requires Validate(line, comment).None?
    requires content != [] && '\n' !in content && '#' !in content
    ensures AddToShellFile(content, line, comment) == Ok(content + "\n\n" + CombinedLine(line, comment))
  {
    NoHashNoMatch(content, comment, 0);
    AddAfterUntaggedLine(content, line, comment);
  }

  /** The same for any single untagged line. */
  lemma AddAfterUntaggedLine(content: string, line: string, comment: string)
    requires Validate(line, comment).None?
    requires content != [] && '\n' !in content && !LineMatches(content, comment)
    ensures AddToShellFile(content, line, comment) == Ok(content + "\n\n" + CombinedLine(line, comment))
  {
    var x := CombinedLine(line, comment);
    SplitSingle(content);
    assert NoMatch([content], comment);
    assert TrimTrailingEmpty([content]) == [content];
    assert SeparatedAppend([content], x) == [content, "", x];
    AddWhenUntagged(content, line, comment);
    JoinThree(content, "", x);
    assert content + "\n" + "" + "\n" + x == content + "\n\n" + x;
  }

  /** A line without `#` never carries a tag. */
  lemma {:induction false} NoHashNoMatch(l: string, comment: string, at: nat)
    requires '#' !in l && at <= |l|
    ensures !MatchesFrom(l, comment, at)
    decreases |l| - at
  {
    if at < |l| {
      assert l[at] in l;
      NoHashNoMatch(l, comment, at + 1);
    }
  }

  lemma JoinThree(a: string, b: string, c: string)
    ensures Join([a, b, c]) == a + "\n" + b + "\n" + c
  {
    assert [a, b, c][1..] == [b, c];
    assert [b, c][1..] == [c];
    assert Join([b, c]) == b + "\n" + c;
  }

  /** Two newline-free lines joined by a line break split back into them. */
  lemma SplitTwo(a: string, b: string)
    requires '\n' !in a && '\n' !in b
    ensures Split(a + "\n" + b) == [a, b]
  {
    assert [a, b][1..] == [b];
    SplitJoin([a, b]);
  }

  /** Three newline-free lines joined by line breaks split back into them. */
  lemma SplitThree(a: string, b: string, c: string)
    requires '\n' !in a && '\n' !in b && '\n' !in c
    ensures Split(a + "\n" + b + "\n" + c) == [a, b, c]
  {
    JoinThree(a, b, c);
    SplitJoin([a, b, c]);
  }

  /** A tagged line after an untagged one is overwritten in place by the
      combined line; the lines around it keep their text. */
  lemma AddReplacesMiddle(a: string, t: string, b: string, line: string, comment: string)
    requires Validate(line, comment).None?
    requires '\n' !in a && '\n' !in t && '\n' !in b
    requires !LineMatches(a, comment) && LineMatches(t, comment)
    ensures AddToShellFile(a + "\n" + t + "\n" + b, line, comment) ==
      Ok(a + "\n" + CombinedLine(line, comment) + "\n" + b)
  {
    var x := CombinedLine(line, comment);
    SplitThree(a, t, b);
    assert FirstMatch([a, t, b], comment, 1);
    assert AddToLines([a, t, b], line, comment) == [a, x, b];
    var r := AddToShellFile(a + "\n" + t + "\n" + b, line, comment).value;
    JoinSplit(r);
    JoinThree(a, x, b);
  }

  /** Removing a tagged last line after a non-empty untagged one leaves that line. */
  lemma RemoveTaggedLast(a: string, t: string, comment: string)
    requires a != [] && '\n' !in a && '\n' !in t
    requires !LineMatches(a, comment) && LineMatches(t, comment)
    ensures RemoveFromShellFile(a + "\n" + t, comment) == Ok(a)
  {
    SplitTwo(a, t);
    var lines := [a, t];
    assert OnlyMatch(lines, comment, 1);
    assert lines[..1] + lines[2..] == [a];
    assert TrimTrailingEmpty([a]) == [a];
  }
}

=== FILE: text.dfy ===
/** The pieces of Go's `strings` package the shell-file editor relies on:
    `TrimSpace`, `Split(s, "\n")` and `Join(lines, "\n")`. */
module Text {

  /** White space as `strings.TrimSpace` sees it, restricted to ASCII:
      tab, line feed, vertical tab, form feed, carriage return and space. */
  predicate IsSpace(ch: char) {
    ch == ' ' || ch == '\t' || ch == '\n' || ch == '\r' || ch == '\U{B}' || ch == '\U{C}'
  }

  /** Drops leading white space. */
  function TrimLeft(s: string): (r: string)
    ensures r == [] || !IsSpace(r[0])
    decreases |s|
  {
    if |s| > 0 && IsSpace(s[0]) then TrimLeft(s[1..]) else s
  }

  /** Drops trailing white space. */
  function TrimRight(s: string): (r: string)
    ensures r == [] || !IsSpace(r[|r| - 1])
    decreases |s|
  {
    if |s| > 0 && IsSpace(s[|s| - 1]) then TrimRight(s[..|s| - 1]) else s
  }

  /** No white space at either end. */
  predicate IsTrimmed(s: string) {
    s == [] || (!IsSpace(s[0]) && !IsSpace(s[|s| - 1]))
  }

  /** Nothing but white space. */
  predicate AllSpace(t: string)
    decreases |t|
  {
    t == [] || (IsSpace(t[0]) && AllSpace(t[1..]))
  }

  /** `strings.TrimSpace`: the text between the leading and the trailing white
      space. */
  function Trim(s: string): (r: string)
    ensures IsTrimmed(r)
  {
    TrimRightPrefix(TrimLeft(s));
    TrimRight(TrimLeft(s))
  }

  /** What `Trim` keeps is a slice of `s` with only white space cut off at
      either end; with `IsTrimmed` of the result, this fixes the result. */
  lemma TrimCutsSpace(s: string)
    ensures exists i, j :: 0 <= i <= j <= |s| && Trim(s) == s[i..j] && AllSpace(s[..i]) && AllSpace(s[j..])
  {
    var left := TrimLeft(s);
    TrimLeftSuffix(s);
    TrimRightPrefix(left);
    var i := |s| - |left|;
    var j := i + |TrimRight(left)|;
    assert TrimRight(left) == s[i..j] && s[j..] == left[|TrimRight(left)|..];
  }

  /** Trimming leaves text without surrounding white space alone. */
  lemma TrimOfTrimmed(s: string)
    requires IsTrimmed(s)
    ensures Trim(s) == s
  {
    if s != [] {
      TrimLeftKeeps(s);
      TrimRightKeeps(s);
    }
  }

  /** Dropping leading white space leaves a suffix, and what it drops is white space. */
  lemma {:induction false} TrimLeftSuffix(s: string)
    ensures |TrimLeft(s)| <= |s| && TrimLeft(s) == s[|s| - |TrimLeft(s)|..]
    ensures AllSpace(s[..|s| - |TrimLeft(s)|])
    decreases |s|
  {
    if |s| > 0 && IsSpace(s[0]) {
      TrimLeftSuffix(s[1..]);
      var n := |s| - |TrimLeft(s)|;
      assert s[..n] == [s[0]] + s[1..][..n - 1];
    }
  }

  /** Dropping trailing white space leaves a prefix, and what it drops is white space. */
  lemma {:induction false} TrimRightPrefix(s: string)
    ensures |TrimRight(s)| <= |s| && TrimRight(s) == s[..|TrimRight(s)|]
    ensures AllSpace(s[|TrimRight(s)|..])
    decreases |s|
  {
    if |s| > 0 && IsSpace(s[|s| - 1]) {
      var init := s[..|s| - 1];
      TrimRightPrefix(init);
      var n := |TrimRight(s)|;
      assert s[n..] == init[n..] + [s[|s| - 1]];
      AllSpaceSnoc(init[n..], s[|s| - 1]);
    }
  }

  /** White space followed by one more white-space character is white space. */
  lemma {:induction false} AllSpaceSnoc(t: string, ch: char)
    requires AllSpace(t) && IsSpace(ch)
    ensures AllSpace(t + [ch])
    decreases |t|
  {
    if t != [] {
      assert (t + [ch])[1..] == t[1..] + [ch];
      AllSpaceSnoc(t[1..], ch);
    }
  }

  /** Trimming only removes characters. */
  lemma TrimKeepsOut(s: string, ch: char)
    requires ch !in s
    ensures ch !in Trim(s)
  {
    var t := TrimLeft(s);
    TrimLeftSuffix(s);
    assert ch !in t;
    TrimRightPrefix(t);
  }

  /** Trimming keeps every character that is not white space. */
  lemma TrimKeepsInner(s: string, k: int)
    requires 0 <= k < |s| && !IsSpace(s[k])
    ensures s[k] in Trim(s)
  {
    TrimCutsSpace(s);
    var i, j :| 0 <= i <= j <= |s| && Trim(s) == s[i..j] && AllSpace(s[..i]) && AllSpace(s[j..]);
    if k < i {
      AllSpaceAt(s[..i], k);
    } else if k >= j {
      AllSpaceAt(s[j..], k - j);
    } else {
      assert s[k] == Trim(s)[k - i];
    }
  }

  lemma {:induction false} AllSpaceAt(t: string, k: int)
    requires AllSpace(t) && 0 <= k < |t|
    ensures IsSpace(t[k])
    decreases k
  {
    if k > 0 {
      AllSpaceAt(t[1..], k - 1);
    }
  }

  lemma TrimLeftSpaceHead(ch: char, s: string)
    requires IsSpace(ch)
    ensures TrimLeft([ch] + s) == TrimLeft(s)
  {
    assert ([ch] + s)[1..] == s;
  }

  lemma TrimLeftKeeps(s: string)
    requires s != [] && !IsSpace(s[0])
    ensures TrimLeft(s) == s
  {
  }

  lemma TrimRightSpaceTail(s: string, ch: char)
    requires IsSpace(ch)
    ensures TrimRight(s + [ch]) == TrimRight(s)
  {
    assert (s + [ch])[..|s|] == s;
  }

  lemma TrimRightKeeps(s: string)
    requires s != [] && !IsSpace(s[|s| - 1])
    ensures TrimRight(s) == s
  {
  }

  /** `strings.HasPrefix`. */
  predicate HasPrefix(s: string, prefix: string) {
    |prefix| <= |s| && s[..|prefix|] == prefix
  }

  /** `strings.Join(lines, "\n")`. */
  function Join(lines: seq<string>): string
    decreases |lines|
  {
    if |lines| == 0 then []
    else if |lines| == 1 then lines[0]
    else lines[0] + "\n" + Join(lines[1..])
  }

  /** `strings.Split(s, "\n")`: the maximal newline-free pieces of `s`; there is
      always at least one, so the empty text splits into one empty line. */
  function Split(s: string): (lines: seq<string>)
    ensures |lines| >= 1
    ensures forall i :: 0 <= i < |lines| ==> '\n' !in lines[i]
    decreases |s|
  {
    if s == [] then [[]]
    else
      var rest := Split(s[1..]);
      if s[0] == '\n' then [[]] + rest
      else [[s[0]] + rest[0]] + rest[1..]
  }

  /** Joining the pieces of a split gives back the text. */
  lemma {:induction false} JoinSplit(s: string)
    ensures Join(Split(s)) == s
    decreases |s|
  {
    if s != [] {
      var rest := Split(s[1..]);
      JoinSplit(s[1..]);
      if s[0] == '\n' {
        assert Split(s) == [[]] + rest;
        assert ([[]] + rest)[1..] == rest;
      } else {
        var first := [s[0]] + rest[0];
        assert Split(s) == [first] + rest[1..];
        if |rest| > 1 {
          assert ([first] + rest[1..])[1..] == rest[1..];
          assert Join(rest) == rest[0] + "\n" + Join(rest[1..]);
        }
      }
    }
  }

  /** A character other than a line break extends the first piece. */
  lemma SplitCons(c: char, t: string)
    requires c != '\n'
    ensures Split([c] + t) == [[c] + Split(t)[0]] + Split(t)[1..]
  {
    assert ([c] + t)[1..] == t;
  }

  /** A newline-free text glued in front of a text extends the first piece. */
  lemma {:induction false} SplitPrepend(a: string, b: string)
    requires '\n' !in a
    ensures Split(a + b) == [a + Split(b)[0]] + Split(b)[1..]
    decreases |a|
  {
    var sb := Split(b);
    if a == [] {
      assert a + b == b;
      assert a + sb[0] == sb[0];
      assert sb == [sb[0]] + sb[1..];
    } else {
      var t := a[1..] + b;
      assert a + b == [a[0]] + t;
      assert a[0] != '\n' by {
        assert a[0] in a;
      }
      SplitCons(a[0], t);
      SplitPrepend(a[1..], b);
      assert [a[0]] + (a[1..] + sb[0]) == a + sb[0];
    }
  }

  /** Splitting the join of newline-free lines gives back the lines. */
  lemma {:induction false} SplitJoin(lines: seq<string>)
    requires |lines| >= 1
    requires forall i :: 0 <= i < |lines| ==> '\n' !in lines[i]
    ensures Split(Join(lines)) == lines
    decreases |lines|
  {
    if |lines| == 1 {
      SplitPrepend(lines[0], []);
      assert lines[0] + [] == lines[0];
    } else {
      var tail := Join(lines[1..]);
      SplitJoin(lines[1..]);
      assert Join(lines) == lines[0] + ("\n" + tail);
      SplitPrepend(lines[0], "\n" + tail);
      assert ("\n" + tail)[1..] == tail;
      assert Split("\n" + tail) == [[]] + lines[1..];
      assert lines[0] + [] == lines[0];
      assert lines == [lines[0]] + lines[1..];
    }
  }

  /** The last piece of a split is empty exactly when the text is empty or ends in a newline. */
  lemma {:induction false} SplitLastEmpty(s: string)
    ensures var ls := Split(s); ls[|ls| - 1] == [] <==> (s == [] || s[|s| - 1] == '\n')
    decreases |s|
  {
    if s != [] {
      var rest := Split(s[1..]);
      SplitLastEmpty(s[1..]);
      if s[0] != '\n' && |rest| == 1 {
        assert Split(s) == [[s[0]] + rest[0]];
        if s[1..] != [] {
          assert s[|s| - 1] == s[1..][|s[1..]| - 1];
        }
      } else if s[1..] != [] {
        assert s[|s| - 1] == s[1..][|s[1..]| - 1];
      }
    }
  }
}
